=== FILE: README.md ===
# verify — checksum database, reconciliation and patch generation, in Dafny

This project models the core of `verify`, a small tool that keeps a checksum
database for a directory tree. The database is a text file with one
`<digest>  <path>` line per file. The tool has three parts:

- **The checksum store and its file format** (`base.py`). The store is a
  dictionary from a relative path to a record `(digest, seen)`, modelled
  with insertion order (see "Left out" for verify.py under Python 2). Reading a database file slices each non-empty line at
  fixed offsets: the digest is characters 0-31 and the path starts at
  character 34. Writing emits `digest + "  " + path + "\n"` in dictionary
  order. The ignore list is an ordered list of shell-style patterns, one per
  non-empty line, and a path is ignored when any pattern matches it.
- **The verification script** (`verify.py`). It walks a tree against one
  store. Each walked file is verified, failed or new. A deferred sweep then
  counts, and optionally deletes, the entries whose file was not
  encountered. Finally the script decides whether the database file must be
  rewritten.
- **The patch generator** (`diff.py`). It compares a local store with a
  remote one. It emits numbered add, replace and delete operations into a
  tar archive as `{i}meta` / `{i}data` entries.

Modules:

| file | module | contents |
|---|---|---|
| basics.dfy | `Basics` | `Option`, distinct sequences, order-preserving subsequences |
| store.dfy | `Store` | the ordered dictionary: `Put`, `Remove`, `MarkSeen`, the persisted view |
| text.dfy | `Text` | `rstrip('\r\n')`, text-mode line iteration, writing lines back |
| codec.dfy | `Codec` | `read_database` / `write_database` and their round trip |
| ignore.dfy | `Ignore` | `read_ignorelist`, `match_ignorelist`, a concrete `*`/`?` matcher |
| reconcile.dfy | `Reconcile` | the verification script: walk, sweep, rewrite decision |
| patch.dfy | `Patch` | `PatchGenerator`: both phases, index numbering, the archive |

Everything is a pure function over immutable values.

- The content digest (`md5sum`) is a function parameter `hash`.
- The directory walk is a parameter `walk`: the paths in the order `os.walk`
  yields them.
- `fnmatch.fnmatch` is a parameter `fnmatch(name, pattern)`.
- Each pass is a fold over a sequence of paths that threads the store and a
  counters record.
- The patch generator's archive is a sequence of named entries. An entry's
  payload is literal text or the local file at a path.

Several operations are stated against an independent reference:

- **Verification pass.** It is compared with a per-path classification
  against the store as loaded: `Classify`, `Expected` and `PassOutcome`.
- **Patch generator.** It is compared with set descriptions of which paths
  get which operation.
- **Codec.** It is compared with its inverse: the round trip, and the
  injectivity of writing.

## Model

| member | source | states |
|---|---|---|
| Store.Put | base.py:24 | assigning to a present path keeps its position, assigning to an absent path appends it; the dictionary stays duplicate-free |
| Store.Remove | verify.py:84-85 | deleting a key removes exactly that entry and keeps the order of the rest |
| Store.MarkSeen | verify.py:62 | marking an entry seen changes only that entry's flag; paths, order and digests stay |
| Text.StripTerminators | base.py:20 | `rstrip('\r\n')` yields a prefix of the line that ends in no terminator, and everything stripped was a terminator |
| Text.SplitLines | base.py:19 | iterating over a text file cuts the text into pieces that concatenate back to it, each holding at most one '\n', at its end |
| Text.SplitJoin | base.py:19 | iterating over text written as complete lines gives exactly those lines back |
| Codec.ParseLine | base.py:20-23 | one line of the database file; specified by `Codec.ParseLineFields` and `Codec.ParseIgnoresSeparator` |
| Codec.ParseLineFields | base.py:20-23 | a line empty after stripping yields nothing; otherwise the digest is the first 32 characters and the path everything from character 34 on |
| Codec.ParseIgnoresSeparator | base.py:22-23 | characters 32 and 33 of a line are never inspected: for a 32-character digest and a path, neither holding a terminator, any two characters between them give the same entry |
| Codec.ReadLines | base.py:19-24 | the loaded dictionary is duplicate-free, every entry starts unseen, and there are no more entries than lines |
| Codec.ReadDatabase | base.py:16-24 | a missing database file gives the empty dictionary; a present one loads every entry unseen |
| Codec.ReadLinesKeys | base.py:19-24 | a path has an entry iff some non-empty line names it |
| Codec.ReadLinesOrder | base.py:19-24 | load order is file order: a path has an entry iff some line names it, and the keys are listed in the order of the first line naming each, a repeated path keeping its first line's position |
| Codec.ReadLinesLastWins | base.py:24 | the entry of a path carries the digest of the last line that names it: a later line replaces the digest of an earlier one |
| Codec.BlankLineSkipped | base.py:21 | a line that is empty after stripping leaves the dictionary unchanged |
| Codec.FormatLinesParse | base.py:28-29 | for well-formed data, the i-th written line parses back to the digest and path of the i-th key |
| Codec.WriteDatabase | base.py:26-29 | the text of the database file; specified by `Codec.WriteLines`, `Codec.RoundTrip` and `Codec.WriteDatabaseInjective` |
| Codec.WriteLines | base.py:26-29 | reading the written file line by line gives exactly one line per entry, in dictionary order |
| Codec.RoundTrip | base.py:16-29 | reading back a written well-formed dictionary gives the same paths, in the same order, with the same digests, all unseen |
| Codec.WriteDatabaseInjective | base.py:26-29 | two well-formed dictionaries are written as the same text iff they agree on order and digests |
| Ignore.KeptLines | base.py:34-37 | the kept patterns are non-empty, end in no terminator, and are no more than the lines |
| Ignore.KeptLinesMembers | base.py:34-37 | a pattern is kept iff it is non-empty and is some line with its terminators stripped |
| Ignore.KeptLinesAppend | base.py:34-37 | patterns are kept in file order: two runs of lines give their two pattern lists concatenated |
| Ignore.ReadIgnorelist | base.py:31-37 | no ignore-list file gives the empty list, and no kept pattern is empty |
| Ignore.MatchIgnorelist | base.py:39-43 | a path is ignored iff some pattern of the list matches it |
| Ignore.Glob | base.py:41 | a concrete `fnmatch` for literals, `?` and `*`; specified by `Ignore.GlobStarMatchesAll`, `Ignore.GlobLiteral` and `Ignore.GlobPrefix` |
| Ignore.GlobStarMatchesAll | base.py:41 | with the concrete matcher, `*` matches every path, separators included |
| Ignore.GlobLiteral | base.py:41 | with the concrete matcher, a pattern without wildcards matches exactly the path it spells |
| Ignore.GlobPrefix | base.py:41 | with the concrete matcher, `prefix*` matches exactly the paths that start with `prefix`, at any depth |
| Ignore.StarListIgnoresAll | base.py:39-43 | a list holding `*` ignores every path |
| Reconcile.CheckFile | verify.py:46-71 | a known file is marked seen and counted verified or failed by its digest, or not counted when verification is off; its digest is replaced only when it failed and updating is on; an unknown file is counted new, and recorded, appended and seen, only when adding is on |
| Reconcile.Walk | verify.py:43-71 | the walk checks the files in walk order, keeps the dictionary duplicate-free and leaves `removed` alone; its effect is stated by `Reconcile.WalkEffect` |
| Reconcile.WalkEffect | verify.py:43-71 | after the walk, walked entries are seen with their refreshed digest; new paths are appended in walk order iff adding is on; other entries are untouched; each counter counts the walked paths of its class against the store as loaded |
| Reconcile.UnseenKeys | verify.py:74-78 | the deletion candidates are exactly the unseen entries, in dictionary order |
| Reconcile.DeleteAll | verify.py:84-85 | deleting a list of keys removes exactly those keys and keeps the order and records of the rest |
| Reconcile.Sweep | verify.py:73-85 | every unseen entry counts as removed exactly once; it is deleted iff deletion is on; seen entries stay unchanged and in order; with nothing unseen or deletion off the store is untouched |
| Reconcile.Reconcile | verify.py:87-94 | the database is written iff some failed file was updated, some new file was added or some deleted entry was removed under the matching flag; the text written is the serialised final store |
| Reconcile.NeedsRewrite | verify.py:87-91 | the three-clause rewrite condition; `Reconcile.RewriteIffChanged` shows it holds iff the pass changed what is persisted |
| Reconcile.ReconcileSummary | verify.py:43-85 | the whole pass, key by key and counter by counter, against the store as loaded; `removed` counts each unwalked unseen entry once |
| Reconcile.ClassesPartition | verify.py:46-71 | every walked path falls in exactly one class; with verification on, none is left unverified |
| Reconcile.CountClassPositive | verify.py:46-71 | a counter is non-zero iff some walked path falls in its class |
| Reconcile.ReconcileComplete | verify.py:46-71 | with verification on and distinct walked paths, verified + failed + new equals the number of walked files |
| Reconcile.ReconcileIdempotent | verify.py:43-91 | whatever the flags, a store that already holds exactly the walked files with current digests yields no failures, additions or removals and no rewrite; with verification on, every file is verified |
| Reconcile.RewriteIffChanged | verify.py:87-91 | the database is rewritten iff the pass changed what it persists: a path added or dropped, the order, or a digest |
| Reconcile.RewriteIffTextChanges | verify.py:87-94 | for well-formed data, the database is rewritten iff the text it would be written as differs from the text the loaded store would be written as (the two coincide with the file itself only when `write_database` produced it) |
| Reconcile.ScriptLoadLines | verify.py:29-36 | the script's own loader gives a duplicate-free store with every entry unseen |
| Reconcile.ScriptLoadAgrees | verify.py:29-36 | without blank lines, the script's loader and `read_database` load the same store |
| Reconcile.ScriptLoadKeepsBlankLine | verify.py:32-36 | a blank line gives the script's loader an entry for the empty path, where `read_database` skips it |
| Reconcile.ScriptLoad | verify.py:29-36 | no database file gives the empty dictionary; a present one is loaded with the script's own loader, every entry unseen |
| Reconcile.Run | verify.py:29-85 | run from its database file with its own loader, the script counts as removed exactly the loaded paths the walk did not encounter |
| Reconcile.RunWithSharedLoader | base.py:16-24 | the same run with `read_database`'s loader: removed counts exactly the paths of non-blank lines the walk did not encounter |
| Reconcile.BlankFileRemoved | verify.py:32-36 | on the database file `"\n"` and a walk without the empty path, the script as written counts one removed file, the run with the shared loader none |
| Patch.Emit | diff.py:64-70 | each emitted operation takes the current index, and the index and the operation's counter each grow by one |
| Patch.CheckLocalFile | diff.py:57-93 | Replace is emitted iff the remote store has the path, changed files are diffed and the digests differ; Add iff the remote store lacks the path and new files are diffed; a path the remote store has is marked seen there either way; nothing else changes |
| Patch.CheckRemoteFile | diff.py:95-110 | Delete is emitted iff the remote entry is still unseen and deleted files are diffed; the remote store is unchanged |
| Patch.LocalPass | diff.py:117-119 | phase one: `check_local_file` for every non-ignored local path, in local order, keeping the numbering; specified by `Patch.LocalPassRemote`, `Patch.LocalPassOps` and `Patch.LocalPassKinds` |
| Patch.LocalPassRemote | diff.py:117-119 | phase one keeps the remote paths, their order and digests, and marks seen exactly the non-ignored local paths it visits |
| Patch.LocalPassOps | diff.py:117-119 | phase one only appends, never emits a Delete or an ignored path, and emits in local-store order |
| Patch.LocalPassKinds | diff.py:117-119 | the paths phase one turns into Adds and into Replaces, as sets |
| Patch.RemotePass | diff.py:121-123 | phase two: `check_remote_file` for every non-ignored remote path, in remote order, keeping the numbering and leaving the remote store unchanged; specified by `Patch.RemotePassOps` and `Patch.RemotePassKinds` |
| Patch.RemotePassOps | diff.py:121-123 | phase two only appends, emits only Deletes and no ignored path, and emits in remote-store order |
| Patch.RemotePassKinds | diff.py:121-123 | phase two adds a Delete for exactly the visited, non-ignored, unseen remote entries when deleted files are diffed |
| Patch.Generate | diff.py:112-123 | the emitted indices are exactly 0..N-1 in emission order, with N = new + changed + deleted, each counter counting its kind |
| Patch.GenerateKinds | diff.py:57-123 | Add for exactly the non-ignored local paths the remote lacks (when diffing new), Replace for exactly the non-ignored shared paths with different digests (when diffing changed), Delete for exactly the non-ignored remote paths the local store lacks (when diffing deleted) |
| Patch.GenerateOrder | diff.py:116-123 | every Add and Replace precedes every Delete; Adds and Replaces follow local-store order, Deletes remote-store order; no operation names an ignored path |
| Patch.GenerateDistinct | diff.py:116-123 | no path is named by two operations |
| Patch.CountDistinct | diff.py:73 | when no path repeats, each counter equals the number of distinct paths of its kind |
| Patch.GenerateCounts | diff.py:49-51 | `new`, `changed` and `deleted` end equal to the numbers of paths added, replaced and deleted |
| Patch.GenerateRemote | diff.py:78 | the remote store keeps its paths, order and digests, and ends with exactly the non-ignored local paths marked seen |
| Patch.Diff | diff.py:53-55 | from the files: no emitted operation names a path that an ignore pattern matches, and the indices are contiguous from 0 |
| Patch.DiffAddsAndDeletes | diff.py:112-123 | from the files: Add iff local-only, unmatched and diffing new; Delete iff remote-only, unmatched and diffing deleted |
| Patch.NatToString | diff.py:66 | `str(n)` is a non-empty string of digits `0`-`9`, of one character exactly when n < 10, with a leading `0` only for 0 itself |
| Patch.NatToStringValue | diff.py:66 | the digits written for n, read back as a decimal number, give n |
| Patch.NatToStringInjective | diff.py:66 | different indices are written as different decimal strings |
| Patch.EntryNameInjective | diff.py:66-69 | an entry name determines its index and whether it is `meta` or `data` |
| Patch.MetaRoundTrip | diff.py:64 | a meta payload `op + "\n" + path` determines the operation and the path, whatever characters the path holds |
| Patch.MetaMember | diff.py:82-86 | the `{i}meta` entry: `str(i) + "meta"` holding `op + "\n" + path`; its name and payload are specified by `Patch.EntryNameInjective` and `Patch.MetaRoundTrip` |
| Patch.DataMember | diff.py:87 | the `{i}data` entry: `str(i) + "data"` holding the local file at the path |
| Patch.Members | diff.py:64-69 | the entries one operation writes: meta then data for an Add or a Replace, meta alone for a Delete (diff.py:100-104); specified by `Patch.ArchiveContents` and `Patch.ArchiveSize` |
| Patch.Archive | diff.py:112-125 | the archive: each operation's entries appended in emission order; specified by `Patch.ArchiveContents`, `Patch.ArchiveSize` and `Patch.ArchiveNamesUnique` |
| Patch.ArchiveContents | diff.py:64-69 | the archive holds exactly the meta entry of every operation and the data entry of every Add and Replace |
| Patch.ArchiveSize | diff.py:100-104 | two archive entries per Add or Replace, one per Delete |
| Patch.ArchiveNamesUnique | diff.py:66-69 | with distinct indices no two archive entries share a name |
| Patch.GenerateArchive | diff.py:112-125 | the archive has uniquely named entries, one per operation plus one per Add and Replace |

## Left out

- Logging (`vlog`, `nvlog`, `log`, the summary lines): it only writes text to standard error.
- `md5sum`, with `mmap` and `hashlib`: file I/O, modelled as the total parameter `hash`. verify.py:18-23 maps the file without the `if s > 0` guard of base.py:64, so on an empty file the script raises and stops before the sweep and the rewrite. The model gives every file a digest, so `Reconcile.ReconcileSummary`, `Reconcile.ReconcileComplete` and the lemmas built on them also describe runs the script would abort.
- `os.walk` and `os.path.join`: the walk is the parameter `walk`.
- `Reconcile.WalkEffect`, `Reconcile.ReconcileSummary` and the lemmas built on them require the walked paths to be distinct. A directory walk yields each file once.
- The tar/gzip container, the UTF-8 encoding of meta payloads, the entry sizes and the closing of the archive: library I/O. The archive is a sequence of named entries.
- `fnmatch` internals, such as `[...]` classes and case normalisation: `fnmatch` is a parameter. `Ignore.Glob` covers literals, `?` and `*` only.
- Argument parsing (`parse_args`): the flags are records, and `Reconcile.Defaults` / `Patch.Defaults` hold the shipped values.
- `clean_ignored` appears only as a parser default and nothing uses it. verify.py reads no ignore list.
- base.py:22-23 does not check the digest width, and neither does the model. `Codec.WellFormed` only delimits what the round trip covers.
- File text is cut into lines after each `\n` only, as Python 2's text mode does on POSIX. A `\r` before the `\n` stays in the line and is removed by `rstrip('\r\n')`. Python 3's universal newlines would also end a line at a lone `\r`; that case is not modelled.
- Dictionary order is modelled as insertion order, the order of Python 3.7 and later. verify.py opens its files with the modes `'r+a'` and `'w+a'` (verify.py:31, 92), which only Python 2 accepts. There a dictionary iterates in hash order, so the order in which verify.py sweeps (verify.py:74) and rewrites (verify.py:93) entries differs from the model's. The entries written, their digests and the counters do not depend on that order.
- Unreadable files and other `IOError` paths are left out.
- In `diff.py`, `read_database` is called with a file name and a target dictionary. The `base.py` shown takes neither, so that call is not part of this model. The patch generator loads both stores with `Codec.ReadDatabase`.
- The local store is only an input of the patch generator. Nothing in the model can change it.

## Findings

| source | as written | input that shows it | evidently intended | confidence | as-written member | corrected member |
|---|---|---|---|---|---|---|
| verify.py:32-36 | every line is sliced into digest and path, blank lines included | a database file with a blank line, e.g. `"\n"`, loads an entry for the empty path, which no walked file matches, so every run counts it as a deleted file | skip lines that are empty after stripping, as `read_database` in base.py:21 does | medium, not executed | Reconcile.BlankFileRemoved | Codec.BlankLineSkipped |

`Reconcile.Run` loads the database with the script's own loader,
`Reconcile.ScriptLoadLines`, as verify.py:29-36 does. `Reconcile.ScriptLoadKeepsBlankLine`
shows the entry a blank line leaves there, and `Reconcile.BlankFileRemoved`
shows the resulting count on the file `"\n"`. `Reconcile.RunWithSharedLoader`
is the corrected run, loading through `Codec.ReadDatabase`, whose blank-line
skip `Codec.BlankLineSkipped` proves. `Reconcile.ScriptLoadAgrees` shows that
the two loaders agree on files without blank lines.

=== FILE: basics.dfy ===
/**
 Small vocabulary shared by the checksum-database model: an optional value,
 duplicate-free sequences and order-preserving sub-sequences.
 */
module Basics {

  /** A value that may be absent (a file that does not exist, a line that carries no entry). */
  datatype Option<+T> = None | Some(value: T)

  /** No element occurs twice. */
  ghost predicate Distinct<T>(s: seq<T>)
  {
    forall i, j :: 0 <= i < j < |s| ==> s[i] != s[j]
  }

  /** `a` is obtained from `b` by dropping elements, so it keeps `b`'s relative order. */
  ghost predicate Subsequence<T>(a: seq<T>, b: seq<T>)
    decreases |b|
  {
    if b == [] then a == []
    else (a != [] && a[0] == b[0] && Subsequence(a[1..], b[1..])) || Subsequence(a, b[1..])
  }

  /** Every element of a sub-sequence occurs in the sequence it was taken from. */
  lemma {:induction false} SubsequenceMembers<T>(a: seq<T>, b: seq<T>)
    requires Subsequence(a, b)
    ensures forall x :: x in a ==> x in b
    decreases |b|
  {
    if b != [] {
      if a != [] && a[0] == b[0] && Subsequence(a[1..], b[1..]) {
        SubsequenceMembers(a[1..], b[1..]);
        assert forall x :: x in a ==> x == a[0] || x in a[1..];
      } else {
        SubsequenceMembers(a, b[1..]);
      }
    }
  }

  /** Dropping elements cannot create a duplicate. */
  lemma {:induction false} SubsequenceDistinct<T>(a: seq<T>, b: seq<T>)
    requires Subsequence(a, b)
    requires Distinct(b)
    ensures Distinct(a)
    decreases |b|
  {
    if b != [] {
      assert Distinct(b[1..]);
      if a != [] && a[0] == b[0] && Subsequence(a[1..], b[1..]) {
        SubsequenceDistinct(a[1..], b[1..]);
        SubsequenceMembers(a[1..], b[1..]);
        assert forall m :: 0 <= m < |b[1..]| ==> b[1..][m] == b[m + 1];
        assert b[0] !in b[1..];
        forall i, j | 0 <= i < j < |a|
          ensures a[i] != a[j]
        {
          if i == 0 {
            assert a[j] == a[1..][j - 1];
            assert a[j] in b[1..];
          } else {
            assert a[i] == a[1..][i - 1] && a[j] == a[1..][j - 1];
          }
        }
      } else {
        SubsequenceDistinct(a, b[1..]);
      }
    }
  }

  /** The empty sequence is a sub-sequence of everything. */
  lemma {:induction false} EmptySubsequence<T>(b: seq<T>)
    ensures Subsequence([], b)
    decreases |b|
  {
    if b != [] {
      EmptySubsequence(b[1..]);
    }
  }

  /** Taking a sub-sequence twice gives a sub-sequence. */
  lemma {:induction false} SubsequenceTransitive<T>(a: seq<T>, b: seq<T>, c: seq<T>)
    requires Subsequence(a, b) && Subsequence(b, c)
    ensures Subsequence(a, c)
    decreases |c|
  {
    if c == [] {
    } else if b != [] && b[0] == c[0] && Subsequence(b[1..], c[1..]) {
      if a != [] && a[0] == b[0] && Subsequence(a[1..], b[1..]) {
        SubsequenceTransitive(a[1..], b[1..], c[1..]);
      } else {
        SubsequenceTransitive(a, b[1..], c[1..]);
      }
    } else {
      SubsequenceTransitive(a, b, c[1..]);
    }
  }

  /** A duplicate-free sequence has exactly as many distinct elements as positions. */
  lemma {:induction false} DistinctCardinality<T>(s: seq<T>)
    requires Distinct(s)
    ensures |set x | x in s| == |s|
  {
    if s != [] {
      assert Distinct(s[1..]);
      DistinctCardinality(s[1..]);
      var rest := set x | x in s[1..];
      assert (set x | x in s) == {s[0]} + rest;
      assert s[0] !in rest;
    }
  }

  /** Every sequence is a sub-sequence of itself. */
  lemma {:induction false} SubsequenceReflexive<T>(s: seq<T>)
    ensures Subsequence(s, s)
  {
    if s != [] {
      SubsequenceReflexive(s[1..]);
    }
  }

  /** The head of a duplicate-free sequence occurs nowhere in its tail, and the tail is duplicate-free. */
  lemma HeadNotInTail<T>(s: seq<T>)
    requires s != [] && Distinct(s)
    ensures s[0] !in s[1..]
    ensures Distinct(s[1..])
    ensures forall k :: k in s <==> k == s[0] || k in s[1..]
  {
    assert forall i :: 0 <= i < |s[1..]| ==> s[1..][i] == s[i + 1];
  }

  /** A sub-sequence of a duplicate-free sequence that keeps every element is the sequence itself. */
  lemma {:induction false} SubsequenceCovering<T>(a: seq<T>, b: seq<T>)
    requires Subsequence(a, b)
    requires Distinct(b)
    requires forall x :: x in b ==> x in a
    ensures a == b
    decreases |b|
  {
    if b != [] {
      assert b[0] !in b[1..] && Distinct(b[1..]) by {
        assert forall i :: 0 <= i < |b[1..]| ==> b[1..][i] == b[i + 1];
      }
      if a != [] && a[0] == b[0] && Subsequence(a[1..], b[1..]) {
        forall x | x in b[1..]
          ensures x in a[1..]
        {
          assert x in b && x != a[0];
          assert x in a;
        }
        SubsequenceCovering(a[1..], b[1..]);
        assert a == [a[0]] + a[1..];
      } else {
        SubsequenceMembers(a, b[1..]);
        assert false;
      }
    }
  }

  /** The pieces `f` makes of each element, appended in order. */
  function Flatten<T, U>(xs: seq<T>, f: T -> seq<U>): seq<U>
  {
    if xs == [] then [] else Flatten(xs[..|xs| - 1], f) + f(xs[|xs| - 1])
  }

  /** An element of the flattened sequence is an element of some piece, and conversely. */
  lemma {:induction false} FlattenMembers<T, U>(xs: seq<T>, f: T -> seq<U>)
    ensures forall u :: u in Flatten(xs, f) <==> exists i :: 0 <= i < |xs| && u in f(xs[i])
  {
    if xs != [] {
      var n := |xs| - 1;
      FlattenMembers(xs[..n], f);
      assert forall i :: 0 <= i < n ==> xs[..n][i] == xs[i];
    }
  }
}

=== FILE: codec.dfy ===
/**
 The checksum database file (base.py `read_database` / `write_database`):
 one line per entry, a fixed-width digest head, two separator characters
 and the path. Reading slices the line at fixed offsets and does not look at
 the separator; writing emits `"%s  %s\n" % (digest, path)` in store order.
 */
module Codec {
  import opened Basics
  import opened Text
  import opened Store

  /** Width of the digest field at the head of every line (`entry[:32]`). */
  const DigestWidth := 32
  /** Offset at which the path starts (`entry[34:]`): the digest and two separator characters. */
  const PathStart := 34
  /** What `write_database` puts between digest and path. */
  const Separator := "  "

  /** The two fields sliced out of a non-empty line. */
  datatype Line = Line(digest: string, path: string)

  /** Python's `s[:n]`. */
  function Head(s: string, n: nat): (r: string)
    ensures r <= s
    ensures |r| == if |s| < n then |s| else n
  {
    if |s| <= n then s else s[..n]
  }

  /** Python's `s[n:]`. */
  function Tail(s: string, n: nat): (r: string)
    ensures |s| <= n ==> r == []
    ensures n < |s| ==> s == s[..n] + r
  {
    if |s| <= n then [] else s[n..]
  }

  /** One line of the database file: nothing when it is empty once its terminators are stripped. */
  function ParseLine(l: string): Option<Line>
  {
    var entry := StripTerminators(l);
    if |entry| > 0 then Some(Line(Head(entry, DigestWidth), Tail(entry, PathStart))) else None
  }

  /**
   A line empty once stripped gives nothing; otherwise the digest is the
   first 32 characters of the stripped line (fewer if it is shorter) and the
   path is everything from character 34 on (nothing if it is shorter).
   */
  lemma ParseLineFields(l: string)
    ensures var r := ParseLine(l);
      var e := StripTerminators(l);
      && (r.None? <==> e == [])
      && (r.Some? ==>
            && r.value.digest <= e
            && |r.value.digest| == (if |e| < DigestWidth then |e| else DigestWidth)
            && (|e| <= PathStart ==> r.value.path == [])
            && (PathStart <= |e| ==> e == r.value.digest + e[DigestWidth..PathStart] + r.value.path))
  {
  }

  /** The path a line stores an entry for, if it stores one. */
  function PathOf(l: string): Option<string>
  {
    match ParseLine(l)
    case None => None
    case Some(x) => Some(x.path)
  }

  /** Apply one line to the dictionary being loaded: `database[path] = [digest, False]`. */
  function LoadLine(s: Store, l: string): (r: Store)
    requires s.Valid()
  {
    match ParseLine(l)
    case None => s
    case Some(x) => Put(s, x.path, Entry(x.digest, false))
  }

  /** Load the lines in file order into an empty dictionary. */
  function ReadLines(lines: seq<string>): (r: Store)
    ensures r.Valid()
    ensures AllUnseen(r)
    ensures |r.keys| <= |lines|
  {
    if lines == [] then Empty
    else
      var before := ReadLines(lines[..|lines| - 1]);
      LoadLine(before, lines[|lines| - 1])
  }

  /** `read_database`: a missing file gives the empty store. */
  function ReadDatabase(file: Option<string>): (r: Store)
    ensures r.Valid()
    ensures AllUnseen(r)
    ensures file.None? ==> r == Empty
  {
    match file
    case None => Empty
    case Some(text) => ReadLines(SplitLines(text))
  }

  /** No later line stores an entry for the path of line `i`. */
  ghost predicate LastFor(lines: seq<string>, i: nat)
    requires i < |lines|
  {
    forall j :: i < j < |lines| ==> PathOf(lines[j]) != PathOf(lines[i])
  }

  /** The paths that the lines name, each line read with `name`. */
  ghost function Named(lines: seq<string>, name: string -> Option<string>): set<string>
  {
    if lines == [] then {}
    else
      Named(lines[..|lines| - 1], name)
      + (match name(lines[|lines| - 1]) case None => {} case Some(p) => {p})
  }

  lemma {:induction false} NamedMembers(lines: seq<string>, name: string -> Option<string>)
    ensures forall k :: k in Named(lines, name) <==> exists i :: 0 <= i < |lines| && name(lines[i]) == Some(k)
  {
    if lines != [] {
      var n := |lines| - 1;
      NamedMembers(lines[..n], name);
      assert forall i :: 0 <= i < n ==> lines[..n][i] == lines[i];
    }
  }

  lemma {:induction false} ReadLinesNamed(lines: seq<string>)
    ensures ReadLines(lines).entries.Keys == Named(lines, PathOf)
  {
    if lines != [] {
      var n := |lines| - 1;
      ReadLinesNamed(lines[..n]);
      LoadLineKeys(ReadLines(lines[..n]), lines[n]);
    }
  }

  /** A path has an entry iff some non-empty line names it. */
  lemma ReadLinesKeys(lines: seq<string>)
    ensures forall k :: k in ReadLines(lines).entries <==>
      exists i :: 0 <= i < |lines| && PathOf(lines[i]) == Some(k)
  {
    ReadLinesNamed(lines);
    NamedMembers(lines, PathOf);
  }

  lemma LoadLineKeys(s: Store, l: string)
    requires s.Valid()
    ensures forall k :: k in LoadLine(s, l).entries <==> k in s.entries || PathOf(l) == Some(k)
  {
  }

  /** A path's digest is the one on the last line naming it: a later line replaces an earlier one. */
  lemma {:induction false} ReadLinesLastWins(lines: seq<string>)
    ensures forall i :: 0 <= i < |lines| && ParseLine(lines[i]).Some? && LastFor(lines, i) ==>
      var x := ParseLine(lines[i]).value;
      x.path in ReadLines(lines).entries && ReadLines(lines).entries[x.path] == Entry(x.digest, false)
  {
    if lines != [] {
      var n := |lines| - 1;
      var init := lines[..n];
      ReadLinesLastWins(init);
      var r := ReadLines(lines);
      assert r == LoadLine(ReadLines(init), lines[n]);
      forall i | 0 <= i < |lines| && ParseLine(lines[i]).Some? && LastFor(lines, i)
        ensures ParseLine(lines[i]).value.path in r.entries
        ensures r.entries[ParseLine(lines[i]).value.path] == Entry(ParseLine(lines[i]).value.digest, false)
      {
        if i < n {
          assert init[i] == lines[i];
          assert LastFor(init, i) by {
            forall j | i < j < n
              ensures PathOf(init[j]) != PathOf(init[i])
            {
              assert init[j] == lines[j];
            }
          }
          assert PathOf(lines[n]) != PathOf(lines[i]);
        }
      }
    }
  }

  /** The index of the first line that `name` reads as `k`, or the number of lines when there is none. */
  ghost function FirstLine(lines: seq<string>, name: string -> Option<string>, k: string): (r: nat)
    ensures r <= |lines|
    ensures r < |lines| ==> name(lines[r]) == Some(k)
    ensures forall m :: 0 <= m < r ==> name(lines[m]) != Some(k)
  {
    if lines == [] then 0
    else if name(lines[0]) == Some(k) then 0
    else
      var r := 1 + FirstLine(lines[1..], name, k);
      assert forall m :: 1 <= m < r ==> lines[m] == lines[1..][m - 1];
      r
  }

  /** Appending a line moves no first occurrence, and gives one to a path named for the first time. */
  lemma FirstLineSnoc(lines: seq<string>, name: string -> Option<string>, k: string)
    requires lines != []
    ensures var n := |lines| - 1;
      var g := FirstLine(lines[..n], name, k);
      FirstLine(lines, name, k) == if g < n then g else if name(lines[n]) == Some(k) then n else |lines|
  {
    var n := |lines| - 1;
    assert forall m :: 0 <= m < n ==> lines[..n][m] == lines[m];
  }

  /** How one line changes the key order: a path named for the first time is appended. */
  lemma LoadLineOrder(s: Store, l: string)
    requires s.Valid()
    ensures PathOf(l).None? ==> LoadLine(s, l) == s
    ensures PathOf(l).Some? && PathOf(l).value in s.entries ==> LoadLine(s, l).keys == s.keys
    ensures PathOf(l).Some? && PathOf(l).value !in s.entries ==> LoadLine(s, l).keys == s.keys + [PathOf(l).value]
  {
  }

  /**
   Load order is file order: a path has an entry iff some line names it,
   and the keys are listed in the order of the first line naming each.
   */
  lemma {:induction false} ReadLinesOrder(lines: seq<string>)
    ensures var r := ReadLines(lines);
      && (forall k :: k in r.entries <==> FirstLine(lines, PathOf, k) < |lines|)
      && (forall i, j :: 0 <= i < j < |r.keys| ==> FirstLine(lines, PathOf, r.keys[i]) < FirstLine(lines, PathOf, r.keys[j]))
  {
    if lines != [] {
      var n := |lines| - 1;
      var init := lines[..n];
      var b, r := ReadLines(init), ReadLines(lines);
      ReadLinesOrder(init);
      assert r == LoadLine(b, lines[n]);
      LoadLineOrder(b, lines[n]);
      LoadLineKeys(b, lines[n]);
      OrderStepKeys(lines, init, b, r, PathOf);
      OrderStepPairs(lines, init, b, r, PathOf);
    }
  }

  /** One step of `ReadLinesOrder`, on membership: for any store that grows as `LoadLine` makes it grow. */
  lemma OrderStepKeys(lines: seq<string>, init: seq<string>, b: Store, r: Store, name: string -> Option<string>)
    requires lines != [] && init == lines[..|lines| - 1]
    requires forall k :: k in b.entries <==> FirstLine(init, name, k) < |init|
    requires forall k :: k in r.entries <==> k in b.entries || name(lines[|lines| - 1]) == Some(k)
    ensures forall k :: k in r.entries <==> FirstLine(lines, name, k) < |lines|
  {
    forall k
      ensures k in r.entries <==> FirstLine(lines, name, k) < |lines|
    {
      OrderKey(lines, b, r, name, k);
    }
  }

  /** One step of `ReadLinesOrder`, on key order. */
  lemma OrderStepPairs(lines: seq<string>, init: seq<string>, b: Store, r: Store, name: string -> Option<string>)
    requires lines != [] && init == lines[..|lines| - 1]
    requires b.Valid() && r.Valid()
    requires forall k :: k in b.entries <==> FirstLine(init, name, k) < |init|
    requires forall i, j :: 0 <= i < j < |b.keys| ==> FirstLine(init, name, b.keys[i]) < FirstLine(init, name, b.keys[j])
    requires var p := name(lines[|lines| - 1]);
      && (p.None? || p.value in b.entries ==> r.keys == b.keys)
      && (p.Some? && p.value !in b.entries ==> r.keys == b.keys + [p.value])
    ensures forall i, j :: 0 <= i < j < |r.keys| ==> FirstLine(lines, name, r.keys[i]) < FirstLine(lines, name, r.keys[j])
  {
    forall i, j | 0 <= i < j < |r.keys|
      ensures FirstLine(lines, name, r.keys[i]) < FirstLine(lines, name, r.keys[j])
    {
      OrderPair(lines, b, r, name, i, j);
    }
  }

  lemma OrderKey(lines: seq<string>, b: Store, r: Store, name: string -> Option<string>, k: string)
    requires lines != []
    requires k in b.entries <==> FirstLine(lines[..|lines| - 1], name, k) < |lines| - 1
    requires k in r.entries <==> k in b.entries || name(lines[|lines| - 1]) == Some(k)
    ensures k in r.entries <==> FirstLine(lines, name, k) < |lines|
  {
    FirstLineSnoc(lines, name, k);
  }

  lemma OrderPair(lines: seq<string>, b: Store, r: Store, name: string -> Option<string>, i: nat, j: nat)
    requires lines != []
    requires b.Valid() && r.Valid()
    requires i < j < |r.keys|
    requires var n := |lines| - 1;
      && (forall k :: k in b.entries <==> FirstLine(lines[..n], name, k) < n)
      && (forall i, j :: 0 <= i < j < |b.keys| ==> FirstLine(lines[..n], name, b.keys[i]) < FirstLine(lines[..n], name, b.keys[j]))
    requires var p := name(lines[|lines| - 1]);
      && (p.None? || p.value in b.entries ==> r.keys == b.keys)
      && (p.Some? && p.value !in b.entries ==> r.keys == b.keys + [p.value])
    ensures FirstLine(lines, name, r.keys[i]) < FirstLine(lines, name, r.keys[j])
  {
    var n := |lines| - 1;
    var init := lines[..n];
    var ki, kj := r.keys[i], r.keys[j];
    FirstLineSnoc(lines, name, ki);
    FirstLineSnoc(lines, name, kj);
    assert ki == b.keys[i] && ki in b.entries;
    assert FirstLine(lines, name, ki) == FirstLine(init, name, ki) < n;
    if j < |b.keys| {
      assert kj == b.keys[j] && kj in b.entries;
      assert FirstLine(lines, name, kj) == FirstLine(init, name, kj);
    } else {
      assert kj == name(lines[n]).value && kj !in b.entries;
      assert FirstLine(lines, name, kj) == n;
    }
  }

  /** `'%s  %s\n' % (digest, path)`. */
  function FormatLine(digest: string, path: string): string
  {
    digest + Separator + path + "\n"
  }

  /** The lines `write_database` emits, one per key in store order. */
  function FormatLines(s: Store): (r: seq<string>)
    requires s.Valid()
    ensures |r| == |s.keys|
    ensures forall i :: 0 <= i < |r| ==> r[i] == FormatLine(s.entries[s.keys[i]].digest, s.keys[i])
  {
    seq(|s.keys|, i requires 0 <= i < |s.keys| => FormatLine(s.entries[s.keys[i]].digest, s.keys[i]))
  }

  /** The text `write_database` writes. */
  function WriteDatabase(s: Store): string
    requires s.Valid()
  {
    Join(FormatLines(s))
  }

  /** What the file format can represent: 32-character digests, and no line terminator in a digest or a path. */
  ghost predicate WellFormed(s: Store)
  {
    forall k :: k in s.entries ==>
      && |s.entries[k].digest| == DigestWidth
      && NoTerminators(s.entries[k].digest)
      && NoTerminators(k)
  }

  /** Characters 32 and 33 of a line are never inspected: for a 32-character digest and a path, neither holding a terminator, any two characters separate them. */
  lemma ParseIgnoresSeparator(digest: string, a: char, b: char, path: string)
    requires |digest| == DigestWidth
    requires NoTerminators(digest) && NoTerminators(path)
    ensures ParseLine(digest + [a, b] + path + "\n") == Some(Line(digest, path))
  {
    var content := digest + [a, b] + path;
    if path != [] {
      StripNewline(content);
      assert content[..DigestWidth] == digest;
      assert content[PathStart..] == path;
    } else {
      var line := digest + [a, b] + path + "\n";
      var entry := StripTerminators(line);
      assert line[DigestWidth - 1] == digest[DigestWidth - 1];
      assert DigestWidth <= |entry| <= PathStart;
      assert entry[..DigestWidth] == digest;
      assert Head(entry, DigestWidth) == digest && Tail(entry, PathStart) == path;
    }
  }

  /** A written line parses back to its digest and path. */
  lemma ParseFormatLine(digest: string, path: string)
    requires |digest| == DigestWidth
    requires NoTerminators(path)
    ensures ParseLine(FormatLine(digest, path)) == Some(Line(digest, path))
  {
    var content := digest + [' ', ' '] + path;
    assert FormatLine(digest, path) == content + "\n";
    StripNewline(content);
    assert content[..DigestWidth] == digest;
    assert content[PathStart..] == path;
  }

  /** Each written line parses back to the digest and path of the entry it was written for. */
  lemma FormatLinesParse(s: Store)
    requires s.Valid()
    requires WellFormed(s)
    ensures forall i :: 0 <= i < |FormatLines(s)| ==>
      ParseLine(FormatLines(s)[i]) == Some(Line(s.entries[s.keys[i]].digest, s.keys[i]))
  {
    forall i | 0 <= i < |FormatLines(s)|
      ensures ParseLine(FormatLines(s)[i]) == Some(Line(s.entries[s.keys[i]].digest, s.keys[i]))
    {
      ParseFormatLine(s.entries[s.keys[i]].digest, s.keys[i]);
    }
  }

  /** Serialising writes exactly one `<digest>  <path>` line per entry, in store order. */
  lemma WriteLines(s: Store)
    requires s.Valid()
    requires WellFormed(s)
    ensures SplitLines(WriteDatabase(s)) == FormatLines(s)
    ensures |SplitLines(WriteDatabase(s))| == |s.keys|
  {
    var ls := FormatLines(s);
    forall i | 0 <= i < |ls|
      ensures IsLine(ls[i])
    {
      var k := s.keys[i];
      var d := s.entries[k].digest;
      assert ls[i] == d + Separator + k + "\n";
      forall j | 0 <= j < |ls[i]| - 1
        ensures ls[i][j] != '\n'
      {
        if j < |d| {
          assert ls[i][j] == d[j];
        } else if j >= |d| + 2 {
          assert ls[i][j] == k[j - |d| - 2];
        }
      }
    }
    SplitJoin(ls);
  }

  /** The store made of the first `n` keys, all marked unseen. */
  ghost function Prefix(s: Store, n: nat): Store
    requires s.Valid()
    requires n <= |s.keys|
  {
    Store(s.keys[..n], map k | k in s.keys[..n] :: Entry(s.entries[k].digest, false))
  }

  lemma {:induction false} ReadFormattedPrefix(s: Store, n: nat)
    requires s.Valid()
    requires WellFormed(s)
    requires n <= |s.keys|
    ensures ReadLines(FormatLines(s)[..n]) == Prefix(s, n)
  {
    if n > 0 {
      var ls := FormatLines(s)[..n];
      assert ls[..n - 1] == FormatLines(s)[..n - 1];
      ReadFormattedPrefix(s, n - 1);
      var before := Prefix(s, n - 1);
      var k := s.keys[n - 1];
      var e := Entry(s.entries[k].digest, false);
      ParseFormatLine(s.entries[k].digest, k);
      assert ReadLines(ls) == LoadLine(before, ls[n - 1]);
      assert LoadLine(before, ls[n - 1]) == Put(before, k, e);
      PrefixStep(s, n);
    }
  }

  lemma PrefixStep(s: Store, n: nat)
    requires s.Valid()
    requires 0 < n <= |s.keys|
    ensures Put(Prefix(s, n - 1), s.keys[n - 1], Entry(s.entries[s.keys[n - 1]].digest, false)) == Prefix(s, n)
  {
    var k := s.keys[n - 1];
    var before := Prefix(s, n - 1);
    assert k !in s.keys[..n - 1];
    assert k !in before.entries;
    assert s.keys[..n] == s.keys[..n - 1] + [k];
    var after := Prefix(s, n);
    forall x
      ensures x in after.entries <==> x in before.entries || x == k
    {
      assert x in s.keys[..n] <==> x in s.keys[..n - 1] || x == k;
    }
  }

  /**
   Round trip: writing a well-formed store and loading the file gives the
   same paths in the same order with the same digests, all marked unseen.
   */
  lemma RoundTrip(s: Store)
    requires s.Valid()
    requires WellFormed(s)
    ensures ReadDatabase(Some(WriteDatabase(s))) == ResetSeen(s)
  {
    WriteLines(s);
    ReadFormattedAll(s);
  }

  lemma ReadFormattedAll(s: Store)
    requires s.Valid()
    requires WellFormed(s)
    ensures ReadLines(FormatLines(s)) == ResetSeen(s)
  {
    ReadFormattedPrefix(s, |s.keys|);
    assert FormatLines(s)[..|s.keys|] == FormatLines(s);
    PrefixAll(s);
  }

  /** All the keys, all unseen: the store with its seen marks cleared. */
  lemma PrefixAll(s: Store)
    requires s.Valid()
    ensures Prefix(s, |s.keys|) == ResetSeen(s)
  {
    var p := Prefix(s, |s.keys|);
    assert s.keys[..|s.keys|] == s.keys;
    forall k | k in s.entries
      ensures k in p.entries && p.entries[k] == ResetSeen(s).entries[k]
    {
    }
    assert p.entries == ResetSeen(s).entries;
  }

  /** Two stores are written as the same text exactly when they agree on order and digests. */
  lemma WriteDatabaseInjective(a: Store, b: Store)
    requires a.Valid() && b.Valid()
    requires WellFormed(a) && WellFormed(b)
    ensures WriteDatabase(a) == WriteDatabase(b) <==> SamePersisted(a, b)
  {
    if WriteDatabase(a) == WriteDatabase(b) {
      SameTextSamePersisted(a, b);
    }
    if SamePersisted(a, b) {
      SamePersistedSameText(a, b);
    }
  }

  lemma SameTextSamePersisted(a: Store, b: Store)
    requires a.Valid() && b.Valid()
    requires WellFormed(a) && WellFormed(b)
    requires WriteDatabase(a) == WriteDatabase(b)
    ensures SamePersisted(a, b)
  {
    RoundTrip(a);
    RoundTrip(b);
    assert ResetSeen(a) == ResetSeen(b);
  }

  lemma SamePersistedSameText(a: Store, b: Store)
    requires a.Valid() && b.Valid()
    requires SamePersisted(a, b)
    ensures WriteDatabase(a) == WriteDatabase(b)
  {
    assert forall k :: k in a.entries ==> a.entries[k].digest == Digests(a)[k];
    assert FormatLines(a) == FormatLines(b);
  }

  /** A line that is empty once its terminators are stripped leaves the dictionary unchanged. */
  lemma BlankLineSkipped(lines: seq<string>, l: string)
    requires StripTerminators(l) == []
    ensures ReadLines(lines + [l]) == ReadLines(lines)
  {
    assert (lines + [l])[..|lines|] == lines;
  }
}

=== FILE: ignore.dfy ===
/**
 The ignore list (base.py `read_ignorelist` / `match_ignorelist`): an ordered
 list of shell-style patterns, one per non-empty line, and a test whether any
 of them matches a path. The pattern matcher itself (`fnmatch.fnmatch`) is a
 parameter `fnmatch(name, pattern)`; `Glob` is a concrete matcher for
 patterns built from literal characters, `?` and `*`.
 */
module Ignore {
  import opened Basics
  import opened Text

  /** The non-empty lines, terminators stripped, in file order. */
  function KeptLines(lines: seq<string>): (r: seq<string>)
    ensures |r| <= |lines|
    ensures forall i :: 0 <= i < |r| ==> r[i] != [] && !IsTerminator(r[i][|r[i]| - 1])
  {
    if lines == [] then [] else KeptLines(lines[..|lines| - 1]) + Kept(lines[|lines| - 1])
  }

  /** A pattern is kept iff some line holds it once its terminators are stripped. */
  lemma {:induction false} KeptLinesMembers(lines: seq<string>)
    ensures forall p :: p in KeptLines(lines) <==>
      p != [] && exists j :: 0 <= j < |lines| && p == StripTerminators(lines[j])
  {
    if lines != [] {
      var n := |lines| - 1;
      KeptLinesMembers(lines[..n]);
      assert forall j :: 0 <= j < n ==> lines[..n][j] == lines[j];
    }
  }

  /** What one line contributes to the list. */
  function Kept(line: string): (r: seq<string>)
  {
    var entry := StripTerminators(line);
    if |entry| > 0 then [entry] else []
  }

  /** `read_ignorelist`: no configured file gives the empty list. */
  function ReadIgnorelist(file: Option<string>): (r: seq<string>)
    ensures file.None? ==> r == []
    ensures forall i :: 0 <= i < |r| ==> r[i] != []
  {
    match file
    case None => []
    case Some(text) => KeptLines(SplitLines(text))
  }

  /** Loading keeps file order: the patterns of two consecutive runs of lines are those of each run, concatenated. */
  lemma {:induction false} KeptLinesAppend(a: seq<string>, b: seq<string>)
    ensures KeptLines(a + b) == KeptLines(a) + KeptLines(b)
    decreases |b|
  {
    if b == [] {
      assert a + b == a;
    } else {
      var n := |b| - 1;
      assert a + b == (a + b[..n]) + [b[n]];
      assert b == b[..n] + [b[n]];
      KeptLinesSnoc(a + b[..n], b[n]);
      KeptLinesSnoc(b[..n], b[n]);
      KeptLinesAppend(a, b[..n]);
      var x, y, z := KeptLines(a), KeptLines(b[..n]), Kept(b[n]);
      assert (x + y) + z == x + (y + z);
    }
  }

  lemma KeptLinesSnoc(lines: seq<string>, l: string)
    ensures KeptLines(lines + [l]) == KeptLines(lines) + Kept(l)
  {
    assert (lines + [l])[..|lines|] == lines;
  }

  /** `match_ignorelist`: try the patterns in order and stop at the first that matches. */
  function MatchIgnorelist(patterns: seq<string>, path: string, fnmatch: (string, string) -> bool): (r: bool)
    ensures r <==> exists i :: 0 <= i < |patterns| && fnmatch(path, patterns[i])
  {
    if patterns == [] then false
    else if fnmatch(path, patterns[0]) then true
    else
      var r := MatchIgnorelist(patterns[1..], path, fnmatch);
      assert forall i :: 1 <= i < |patterns| ==> patterns[i] == patterns[1..][i - 1];
      r
  }

  /** `fnmatch` wildcards: `*` matches any run of characters, `/` included, and `?` any one character. */
  function Glob(name: string, pattern: string): bool
    decreases |pattern| + |name|
  {
    if pattern == [] then name == []
    else if pattern[0] == '*' then Glob(name, pattern[1..]) || (name != [] && Glob(name[1..], pattern))
    else name != [] && (pattern[0] == '?' || pattern[0] == name[0]) && Glob(name[1..], pattern[1..])
  }

  /** A pattern with no wildcard and no character class. */
  ghost predicate Literal(pattern: string)
  {
    forall i :: 0 <= i < |pattern| ==> pattern[i] != '*' && pattern[i] != '?' && pattern[i] != '['
  }

  /** `*` alone matches every path. */
  lemma {:induction false} GlobStarMatchesAll(name: string)
    ensures Glob(name, "*")
  {
    if name != [] {
      GlobStarMatchesAll(name[1..]);
    }
  }

  /** A literal pattern matches exactly the path it spells. */
  lemma {:induction false} GlobLiteral(name: string, pattern: string)
    requires Literal(pattern)
    ensures Glob(name, pattern) <==> name == pattern
    decreases |pattern|
  {
    if pattern != [] && name != [] {
      GlobLiteral(name[1..], pattern[1..]);
      assert name == [name[0]] + name[1..];
      assert pattern == [pattern[0]] + pattern[1..];
    }
  }

  /** A literal followed by `*` matches exactly the paths that start with the literal, at any depth. */
  lemma {:induction false} GlobPrefix(name: string, prefix: string)
    requires Literal(prefix)
    ensures Glob(name, prefix + "*") <==> prefix <= name
    decreases |prefix|
  {
    if prefix == [] {
      assert prefix + "*" == "*";
      GlobStarMatchesAll(name);
    } else {
      assert (prefix + "*")[0] == prefix[0];
      assert (prefix + "*")[1..] == prefix[1..] + "*";
      if name != [] {
        GlobPrefix(name[1..], prefix[1..]);
      }
    }
  }

  /** With the concrete matcher, a list holding `*` ignores every path. */
  lemma StarListIgnoresAll(patterns: seq<string>, path: string)
    requires "*" in patterns
    ensures MatchIgnorelist(patterns, path, Glob)
  {
    GlobStarMatchesAll(path);
    var i :| 0 <= i < |patterns| && patterns[i] == "*";
    assert Glob(path, patterns[i]);
  }
}

=== FILE: patch.dfy ===
/**
 The patch generator (diff.py `PatchGenerator`): compare a local checksum
 store against a remote one and emit numbered add / replace / delete
 operations that would bring the remote tree in line with the local one.

 Phase one walks the local store in its order: a path the remote store
 lacks becomes an Add, a path whose digests differ becomes a Replace, and a
 path the remote store has is marked seen there either way. Phase two walks
 the remote store in its order: an entry still unseen becomes a Delete.
 Ignored paths are skipped in both phases. Every operation takes the next
 archive index; the archive writer is modelled by `Archive`.
 */
module Patch {
  import opened Basics
  import opened Store
  import Text
  import Codec
  import Ignore

  /** The three diff switches (`diff_new`, `diff_changed`, `diff_deleted`). */
  datatype Flags = Flags(diffNew: bool, diffChanged: bool, diffDeleted: bool)

  /** The command-line defaults. */
  const Defaults := Flags(diffNew := true, diffChanged := false, diffDeleted := false)

  datatype Kind = Add | Replace | Delete

  /** The operation word written at the head of a meta entry. */
  function KindName(k: Kind): string
  {
    match k
    case Add => "add"
    case Replace => "replace"
    case Delete => "delete"
  }

  /** One emitted operation: its archive index, what it does, and to which path. */
  datatype Op = Op(index: nat, kind: Kind, path: string)

  /** The generator's counters (`self.new`, `self.changed`, `self.deleted`). */
  datatype Counters = Counters(added: nat, changed: nat, deleted: nat)

  /** The state the two phases thread: the remote store (its seen marks), the operations so far, the next index, the counters. */
  datatype Gen = Gen(remote: Store, ops: seq<Op>, taridx: nat, counters: Counters)

  /** How many operations are of kind `k`. */
  function CountKind(ops: seq<Op>, k: Kind): nat
  {
    if ops == [] then 0
    else CountKind(ops[..|ops| - 1], k) + (if ops[|ops| - 1].kind == k then 1 else 0)
  }

  /** The paths of the operations of kind `k`. */
  function PathsOf(ops: seq<Op>, k: Kind): set<string>
  {
    if ops == [] then {}
    else PathsOf(ops[..|ops| - 1], k) + (if ops[|ops| - 1].kind == k then {ops[|ops| - 1].path} else {})
  }

  /** The paths of the operations, in emission order. */
  function Paths(ops: seq<Op>): (r: seq<string>)
    ensures |r| == |ops|
  {
    seq(|ops|, i requires 0 <= i < |ops| => ops[i].path)
  }

  /**
   The numbering discipline: the next index is the number of operations so
   far, operation `i` carries index `i`, and each counter counts its kind.
   */
  ghost predicate Numbered(g: Gen)
  {
    && g.taridx == |g.ops|
    && (forall i :: 0 <= i < |g.ops| ==> g.ops[i].index == i)
    && g.counters.added == CountKind(g.ops, Add)
    && g.counters.changed == CountKind(g.ops, Replace)
    && g.counters.deleted == CountKind(g.ops, Delete)
  }

  function Bump(c: Counters, k: Kind): Counters
  {
    match k
    case Add => c.(added := c.added + 1)
    case Replace => c.(changed := c.changed + 1)
    case Delete => c.(deleted := c.deleted + 1)
  }

  /** Write one operation under the current index, then advance the index and the kind's counter. */
  function Emit(g: Gen, kind: Kind, path: string): (r: Gen)
    requires Numbered(g)
    ensures Numbered(r)
    ensures r.ops == g.ops + [Op(g.taridx, kind, path)]
    ensures r.remote == g.remote
  {
    var op := Op(g.taridx, kind, path);
    assert (g.ops + [op])[..|g.ops|] == g.ops;
    Gen(g.remote, g.ops + [op], g.taridx + 1, Bump(g.counters, kind))
  }

  /** `check_local_file`. */
  function CheckLocalFile(g: Gen, local: Store, path: string, flags: Flags): (r: Gen)
    requires Numbered(g) && g.remote.Valid()
    requires path in local.entries
    ensures Numbered(r) && r.remote.Valid()
    ensures r.remote.keys == g.remote.keys
    ensures r.remote.entries.Keys == g.remote.entries.Keys
    ensures forall k :: k in g.remote.entries ==>
      && r.remote.entries[k].digest == g.remote.entries[k].digest
      && (r.remote.entries[k].seen <==> g.remote.entries[k].seen || k == path)
    ensures path in g.remote.entries && flags.diffChanged
            && local.entries[path].digest != g.remote.entries[path].digest
            ==> r.ops == g.ops + [Op(g.taridx, Replace, path)]
    ensures path !in g.remote.entries && flags.diffNew ==> r.ops == g.ops + [Op(g.taridx, Add, path)]
    ensures !(path in g.remote.entries && flags.diffChanged && local.entries[path].digest != g.remote.entries[path].digest)
            && !(path !in g.remote.entries && flags.diffNew)
            ==> r.ops == g.ops
  {
    var localEntry := local.entries[path];
    if path in g.remote.entries then
      var remoteEntry := g.remote.entries[path];
      var g' := if flags.diffChanged && localEntry.digest != remoteEntry.digest then Emit(g, Replace, path) else g;
      g'.(remote := MarkSeen(g'.remote, path))
    else if flags.diffNew then Emit(g, Add, path)
    else g
  }

  /** `check_remote_file`. */
  function CheckRemoteFile(g: Gen, path: string, flags: Flags): (r: Gen)
    requires Numbered(g)
    requires path in g.remote.entries
    ensures Numbered(r)
    ensures r.remote == g.remote
    ensures !g.remote.entries[path].seen && flags.diffDeleted ==> r.ops == g.ops + [Op(g.taridx, Delete, path)]
    ensures g.remote.entries[path].seen || !flags.diffDeleted ==> r.ops == g.ops
  {
    var remoteEntry := g.remote.entries[path];
    if !remoteEntry.seen && flags.diffDeleted then Emit(g, Delete, path) else g
  }

  /** The first loop of `run`: the local paths in local-store order, ignored ones skipped. */
  function LocalPass(g: Gen, local: Store, paths: seq<string>, ignored: string -> bool, flags: Flags): (r: Gen)
    requires Numbered(g) && g.remote.Valid()
    requires forall p :: p in paths ==> p in local.entries
    ensures Numbered(r) && r.remote.Valid()
    decreases |paths|
  {
    if paths == [] then g
    else
      var g' := if ignored(paths[0]) then g else CheckLocalFile(g, local, paths[0], flags);
      LocalPass(g', local, paths[1..], ignored, flags)
  }

  /** The second loop of `run`: the remote paths in remote-store order, ignored ones skipped. */
  function RemotePass(g: Gen, paths: seq<string>, ignored: string -> bool, flags: Flags): (r: Gen)
    requires Numbered(g)
    requires forall p :: p in paths ==> p in g.remote.entries
    ensures Numbered(r)
    ensures r.remote == g.remote
    decreases |paths|
  {
    if paths == [] then g
    else
      var g' := if ignored(paths[0]) then g else CheckRemoteFile(g, paths[0], flags);
      RemotePass(g', paths[1..], ignored, flags)
  }

  /** Every operation is of one of the three kinds. */
  lemma {:induction false} CountKindsSum(ops: seq<Op>)
    ensures CountKind(ops, Add) + CountKind(ops, Replace) + CountKind(ops, Delete) == |ops|
  {
    if ops != [] {
      CountKindsSum(ops[..|ops| - 1]);
    }
  }

  /** The state `run` starts from: no operation yet, index 0, counters at zero. */
  function Start(remote: Store): Gen
  {
    Gen(remote, [], 0, Counters(0, 0, 0))
  }

  /**
   `run`: both phases from index 0. The emitted indices are exactly
   0 .. N-1 in emission order, with N the sum of the three counters.
   */
  function Generate(local: Store, remote: Store, ignored: string -> bool, flags: Flags): (r: Gen)
    requires local.Valid() && remote.Valid()
    ensures forall i :: 0 <= i < |r.ops| ==> r.ops[i].index == i
    ensures r.taridx == |r.ops| == r.counters.added + r.counters.changed + r.counters.deleted
    ensures r.counters.added == CountKind(r.ops, Add)
    ensures r.counters.changed == CountKind(r.ops, Replace)
    ensures r.counters.deleted == CountKind(r.ops, Delete)
  {
    var afterLocal := LocalPass(Start(remote), local, local.keys, ignored, flags);
    var r := RemotePass(afterLocal, afterLocal.remote.keys, ignored, flags);
    CountKindsSum(r.ops);
    r
  }

  lemma PathsOfSnoc(ops: seq<Op>, op: Op, k: Kind)
    ensures PathsOf(ops + [op], k) == PathsOf(ops, k) + (if op.kind == k then {op.path} else {})
  {
    assert (ops + [op])[..|ops|] == ops;
  }

  /** A path is among the paths of kind `k` iff some operation of that kind names it. */
  lemma {:induction false} PathsOfMembers(ops: seq<Op>, k: Kind)
    ensures forall p :: p in PathsOf(ops, k) <==> exists i :: 0 <= i < |ops| && ops[i].kind == k && ops[i].path == p
  {
    if ops != [] {
      var n := |ops| - 1;
      PathsOfMembers(ops[..n], k);
      assert forall i :: 0 <= i < n ==> ops[..n][i] == ops[i];
    }
  }

  /** No two operations name the same path. */
  ghost predicate DistinctPaths(ops: seq<Op>)
  {
    forall i, j :: 0 <= i < j < |ops| ==> ops[i].path != ops[j].path
  }

  /** With no path named twice, each counter is the number of distinct paths of its kind. */
  lemma {:induction false} CountDistinct(ops: seq<Op>, k: Kind)
    requires DistinctPaths(ops)
    ensures |PathsOf(ops, k)| == CountKind(ops, k)
  {
    if ops != [] {
      var n := |ops| - 1;
      var init := ops[..n];
      assert DistinctPaths(init) by {
        forall i, j | 0 <= i < j < n
          ensures init[i].path != init[j].path
        {
          assert init[i] == ops[i] && init[j] == ops[j];
        }
      }
      CountDistinct(init, k);
      forall i | 0 <= i < n
        ensures init[i].path != ops[n].path
      {
        assert init[i] == ops[i];
      }
      PathsOfAbsent(init, k, ops[n].path);
    }
  }

  /** A path no operation names is in none of the kind sets. */
  lemma {:induction false} PathsOfAbsent(ops: seq<Op>, k: Kind, p: string)
    requires forall i :: 0 <= i < |ops| ==> ops[i].path != p
    ensures p !in PathsOf(ops, k)
  {
    if ops != [] {
      var n := |ops| - 1;
      assert forall i :: 0 <= i < n ==> ops[..n][i] == ops[i];
      PathsOfAbsent(ops[..n], k, p);
    }
  }

  /** The local paths phase one turns into Adds. */
  ghost function AddSet(remote: Store, paths: seq<string>, ignored: string -> bool, flags: Flags): set<string>
  {
    set p | p in paths && !ignored(p) && p !in remote.entries && flags.diffNew
  }

  /** The local paths phase one turns into Replaces. */
  ghost function ReplaceSet(local: Store, remote: Store, paths: seq<string>, ignored: string -> bool, flags: Flags): set<string>
    requires forall p :: p in paths ==> p in local.entries
  {
    set p | p in paths && !ignored(p) && p in remote.entries && flags.diffChanged
              && local.entries[p].digest != remote.entries[p].digest
  }

  /** The remote paths phase two turns into Deletes. */
  ghost function DeleteSet(remote: Store, paths: seq<string>, ignored: string -> bool, flags: Flags): set<string>
    requires forall p :: p in paths ==> p in remote.entries
  {
    set p | p in paths && !ignored(p) && !remote.entries[p].seen && flags.diffDeleted
  }

  /** Phase one leaves the remote paths, their order and their digests alone, and marks seen exactly the non-ignored local paths it visits. */
  lemma {:induction false} LocalPassRemote(g: Gen, local: Store, paths: seq<string>, ignored: string -> bool, flags: Flags)
    requires Numbered(g) && g.remote.Valid()
    requires forall p :: p in paths ==> p in local.entries
    ensures var r := LocalPass(g, local, paths, ignored, flags);
      && r.remote.keys == g.remote.keys
      && r.remote.entries.Keys == g.remote.entries.Keys
      && forall k :: k in g.remote.entries ==>
           && r.remote.entries[k].digest == g.remote.entries[k].digest
           && (r.remote.entries[k].seen <==> g.remote.entries[k].seen || (k in paths && !ignored(k)))
    decreases |paths|
  {
    if paths != [] {
      var q := if ignored(paths[0]) then g else CheckLocalFile(g, local, paths[0], flags);
      LocalPassRemote(q, local, paths[1..], ignored, flags);
      assert forall k :: k in paths <==> k == paths[0] || k in paths[1..];
    }
  }

  /**
   One visit followed by the rest of a pass: when the visit appended
   nothing, or one operation for the head path, the whole pass extends the
   operations and emits in visiting order.
   */
  lemma StepOps(gops: seq<Op>, qops: seq<Op>, rops: seq<Op>, paths: seq<string>)
    requires paths != []
    requires qops == gops || (|qops| == |gops| + 1 && qops[..|gops|] == gops && qops[|gops|].path == paths[0])
    requires |qops| <= |rops| && rops[..|qops|] == qops
    requires Subsequence(Paths(rops[|qops|..]), paths[1..])
    ensures |gops| <= |rops| && rops[..|gops|] == gops
    ensures forall i :: |gops| <= i < |qops| ==> rops[i] == qops[i]
    ensures Subsequence(Paths(rops[|gops|..]), paths)
  {
    var n := |gops|;
    var tail := Paths(rops[|qops|..]);
    forall i | 0 <= i < |qops|
      ensures rops[i] == qops[i]
    {
      assert rops[..|qops|][i] == rops[i];
    }
    if qops == gops {
      assert Subsequence(tail, paths);
    } else {
      var all := Paths(rops[n..]);
      assert all[0] == paths[0];
      assert all[1..] == tail;
    }
    assert rops[..n] == gops by {
      forall i | 0 <= i < n
        ensures rops[..n][i] == gops[i]
      {
        assert qops[..n][i] == qops[i];
      }
    }
  }

  /** One step of phase one appends nothing, or one Add or Replace for the visited, non-ignored path. */
  lemma LocalVisitOps(g: Gen, local: Store, p: string, ignored: string -> bool, flags: Flags)
    requires Numbered(g) && g.remote.Valid()
    requires p in local.entries
    ensures var q := if ignored(p) then g else CheckLocalFile(g, local, p, flags);
      || q.ops == g.ops
      || (&& |q.ops| == |g.ops| + 1 && q.ops[..|g.ops|] == g.ops
          && q.ops[|g.ops|].path == p && q.ops[|g.ops|].kind != Delete && !ignored(p))
  {
    if !ignored(p) {
      var q := CheckLocalFile(g, local, p, flags);
      if q.ops != g.ops {
        assert q.ops[..|g.ops|] == g.ops;
      }
    }
  }

  /** One step of phase two appends nothing, or one Delete for the visited, non-ignored path. */
  lemma RemoteVisitOps(g: Gen, p: string, ignored: string -> bool, flags: Flags)
    requires Numbered(g)
    requires p in g.remote.entries
    ensures var q := if ignored(p) then g else CheckRemoteFile(g, p, flags);
      || q.ops == g.ops
      || (&& |q.ops| == |g.ops| + 1 && q.ops[..|g.ops|] == g.ops
          && q.ops[|g.ops|].path == p && q.ops[|g.ops|].kind == Delete && !ignored(p))
  {
    if !ignored(p) {
      var q := CheckRemoteFile(g, p, flags);
      if q.ops != g.ops {
        assert q.ops[..|g.ops|] == g.ops;
      }
    }
  }

  /**
   Phase one only appends, emits no Delete and no ignored path, and emits
   its paths in the order it visits them.
   */
  lemma {:induction false} LocalPassOps(g: Gen, local: Store, paths: seq<string>, ignored: string -> bool, flags: Flags)
    requires Numbered(g) && g.remote.Valid()
    requires forall p :: p in paths ==> p in local.entries
    ensures var r := LocalPass(g, local, paths, ignored, flags);
      && |g.ops| <= |r.ops| && r.ops[..|g.ops|] == g.ops
      && (forall i :: |g.ops| <= i < |r.ops| ==> r.ops[i].kind != Delete && !ignored(r.ops[i].path))
      && Subsequence(Paths(r.ops[|g.ops|..]), paths)
    decreases |paths|
  {
    var r := LocalPass(g, local, paths, ignored, flags);
    if paths == [] {
      assert Paths(r.ops[|g.ops|..]) == [];
    } else {
      var q := if ignored(paths[0]) then g else CheckLocalFile(g, local, paths[0], flags);
      LocalPassOps(q, local, paths[1..], ignored, flags);
      LocalVisitOps(g, local, paths[0], ignored, flags);
      StepOps(g.ops, q.ops, r.ops, paths);
    }
  }

  /** What phase one emits, kind by kind. */
  lemma {:induction false} LocalPassKinds(g: Gen, local: Store, paths: seq<string>, ignored: string -> bool, flags: Flags)
    requires Numbered(g) && g.remote.Valid()
    requires forall p :: p in paths ==> p in local.entries
    ensures var r := LocalPass(g, local, paths, ignored, flags);
      && PathsOf(r.ops, Add) == PathsOf(g.ops, Add) + AddSet(g.remote, paths, ignored, flags)
      && PathsOf(r.ops, Replace) == PathsOf(g.ops, Replace) + ReplaceSet(local, g.remote, paths, ignored, flags)
      && PathsOf(r.ops, Delete) == PathsOf(g.ops, Delete)
    decreases |paths|
  {
    if paths == [] {
      assert AddSet(g.remote, paths, ignored, flags) == {};
      assert ReplaceSet(local, g.remote, paths, ignored, flags) == {};
    } else {
      var q := if ignored(paths[0]) then g else CheckLocalFile(g, local, paths[0], flags);
      LocalPassKinds(q, local, paths[1..], ignored, flags);
      LocalStepKinds(g, local, paths, ignored, flags);
    }
  }

  lemma LocalStepKinds(g: Gen, local: Store, paths: seq<string>, ignored: string -> bool, flags: Flags)
    requires Numbered(g) && g.remote.Valid()
    requires forall p :: p in paths ==> p in local.entries
    requires paths != []
    ensures var q := if ignored(paths[0]) then g else CheckLocalFile(g, local, paths[0], flags);
      && PathsOf(q.ops, Add) + AddSet(q.remote, paths[1..], ignored, flags)
         == PathsOf(g.ops, Add) + AddSet(g.remote, paths, ignored, flags)
      && PathsOf(q.ops, Replace) + ReplaceSet(local, q.remote, paths[1..], ignored, flags)
         == PathsOf(g.ops, Replace) + ReplaceSet(local, g.remote, paths, ignored, flags)
      && PathsOf(q.ops, Delete) == PathsOf(g.ops, Delete)
  {
    if ignored(paths[0]) {
      SetsCons(local, g.remote, paths, ignored, flags);
    } else {
      VisitedKinds(g, local, paths, ignored, flags);
    }
  }

  lemma VisitedKinds(g: Gen, local: Store, paths: seq<string>, ignored: string -> bool, flags: Flags)
    requires Numbered(g) && g.remote.Valid()
    requires forall p :: p in paths ==> p in local.entries
    requires paths != [] && !ignored(paths[0])
    ensures var q := CheckLocalFile(g, local, paths[0], flags);
      && PathsOf(q.ops, Add) + AddSet(q.remote, paths[1..], ignored, flags)
         == PathsOf(g.ops, Add) + AddSet(g.remote, paths, ignored, flags)
      && PathsOf(q.ops, Replace) + ReplaceSet(local, q.remote, paths[1..], ignored, flags)
         == PathsOf(g.ops, Replace) + ReplaceSet(local, g.remote, paths, ignored, flags)
      && PathsOf(q.ops, Delete) == PathsOf(g.ops, Delete)
  {
    var p := paths[0];
    var q := CheckLocalFile(g, local, p, flags);
    SetsCons(local, g.remote, paths, ignored, flags);
    SetsFrame(local, g.remote, q.remote, paths[1..], ignored, flags);
    CheckedKinds(g, local, p, flags);
    var addHead := if p !in g.remote.entries && flags.diffNew then {p} else {};
    var replaceHead := if p in g.remote.entries && flags.diffChanged
                          && local.entries[p].digest != g.remote.entries[p].digest then {p} else {};
    UnionStep(PathsOf(g.ops, Add), PathsOf(q.ops, Add), addHead,
              AddSet(g.remote, paths[1..], ignored, flags), AddSet(q.remote, paths[1..], ignored, flags),
              AddSet(g.remote, paths, ignored, flags));
    UnionStep(PathsOf(g.ops, Replace), PathsOf(q.ops, Replace), replaceHead,
              ReplaceSet(local, g.remote, paths[1..], ignored, flags), ReplaceSet(local, q.remote, paths[1..], ignored, flags),
              ReplaceSet(local, g.remote, paths, ignored, flags));
  }

  lemma UnionStep(before: set<string>, after: set<string>, head: set<string>, rest: set<string>, rest': set<string>, all: set<string>)
    requires after == before + head
    requires rest' == rest
    requires all == rest + head
    ensures after + rest' == before + all
  {
  }

  /** What one visit of a local path adds to the paths of each kind. */
  lemma CheckedKinds(g: Gen, local: Store, p: string, flags: Flags)
    requires Numbered(g) && g.remote.Valid()
    requires p in local.entries
    ensures var q := CheckLocalFile(g, local, p, flags);
      && PathsOf(q.ops, Add) == PathsOf(g.ops, Add) + (if p !in g.remote.entries && flags.diffNew then {p} else {})
      && PathsOf(q.ops, Replace) == PathsOf(g.ops, Replace)
           + (if p in g.remote.entries && flags.diffChanged
                 && local.entries[p].digest != g.remote.entries[p].digest then {p} else {})
      && PathsOf(q.ops, Delete) == PathsOf(g.ops, Delete)
  {
    var q := CheckLocalFile(g, local, p, flags);
    if p !in g.remote.entries && flags.diffNew {
      var op := Op(g.taridx, Add, p);
      assert q.ops == g.ops + [op];
      PathsOfSnoc(g.ops, op, Add);
      PathsOfSnoc(g.ops, op, Replace);
      PathsOfSnoc(g.ops, op, Delete);
    } else if p in g.remote.entries && flags.diffChanged && local.entries[p].digest != g.remote.entries[p].digest {
      var op := Op(g.taridx, Replace, p);
      assert q.ops == g.ops + [op];
      PathsOfSnoc(g.ops, op, Add);
      PathsOfSnoc(g.ops, op, Replace);
      PathsOfSnoc(g.ops, op, Delete);
    } else {
      assert q.ops == g.ops;
    }
  }

  /** Each set splits into what the head path contributes and what the rest contribute. */
  lemma SetsCons(local: Store, remote: Store, paths: seq<string>, ignored: string -> bool, flags: Flags)
    requires forall p :: p in paths ==> p in local.entries
    requires paths != []
    ensures var p := paths[0];
      && AddSet(remote, paths, ignored, flags)
         == AddSet(remote, paths[1..], ignored, flags)
            + (if !ignored(p) && p !in remote.entries && flags.diffNew then {p} else {})
      && ReplaceSet(local, remote, paths, ignored, flags)
         == ReplaceSet(local, remote, paths[1..], ignored, flags)
            + (if !ignored(p) && p in remote.entries && flags.diffChanged
                  && local.entries[p].digest != remote.entries[p].digest then {p} else {})
  {
    assert forall x :: x in paths <==> x == paths[0] || x in paths[1..];
  }

  /** The sets depend only on which paths the remote store has and on their digests. */
  lemma SetsFrame(local: Store, a: Store, b: Store, paths: seq<string>, ignored: string -> bool, flags: Flags)
    requires forall p :: p in paths ==> p in local.entries
    requires a.entries.Keys == b.entries.Keys
    requires forall k :: k in a.entries ==> a.entries[k].digest == b.entries[k].digest
    ensures AddSet(a, paths, ignored, flags) == AddSet(b, paths, ignored, flags)
    ensures ReplaceSet(local, a, paths, ignored, flags) == ReplaceSet(local, b, paths, ignored, flags)
  {
  }

  lemma DeleteSetCons(remote: Store, paths: seq<string>, ignored: string -> bool, flags: Flags)
    requires forall p :: p in paths ==> p in remote.entries
    requires paths != []
    ensures var p := paths[0];
      DeleteSet(remote, paths, ignored, flags)
      == DeleteSet(remote, paths[1..], ignored, flags)
         + (if !ignored(p) && !remote.entries[p].seen && flags.diffDeleted then {p} else {})
  {
    assert forall x :: x in paths <==> x == paths[0] || x in paths[1..];
  }

  /** Phase two only appends, emits only Deletes and no ignored path, in the order it visits them. */
  lemma {:induction false} RemotePassOps(g: Gen, paths: seq<string>, ignored: string -> bool, flags: Flags)
    requires Numbered(g)
    requires forall p :: p in paths ==> p in g.remote.entries
    ensures var r := RemotePass(g, paths, ignored, flags);
      && |g.ops| <= |r.ops| && r.ops[..|g.ops|] == g.ops
      && (forall i :: |g.ops| <= i < |r.ops| ==> r.ops[i].kind == Delete && !ignored(r.ops[i].path))
      && Subsequence(Paths(r.ops[|g.ops|..]), paths)
    decreases |paths|
  {
    var r := RemotePass(g, paths, ignored, flags);
    if paths == [] {
      assert Paths(r.ops[|g.ops|..]) == [];
    } else {
      var q := if ignored(paths[0]) then g else CheckRemoteFile(g, paths[0], flags);
      RemotePassOps(q, paths[1..], ignored, flags);
      RemoteVisitOps(g, paths[0], ignored, flags);
      StepOps(g.ops, q.ops, r.ops, paths);
    }
  }

  /** What phase two emits: a Delete for each visited, non-ignored, unseen entry, and nothing else. */
  lemma {:induction false} RemotePassKinds(g: Gen, paths: seq<string>, ignored: string -> bool, flags: Flags)
    requires Numbered(g)
    requires forall p :: p in paths ==> p in g.remote.entries
    ensures var r := RemotePass(g, paths, ignored, flags);
      && PathsOf(r.ops, Add) == PathsOf(g.ops, Add)
      && PathsOf(r.ops, Replace) == PathsOf(g.ops, Replace)
      && PathsOf(r.ops, Delete) == PathsOf(g.ops, Delete) + DeleteSet(g.remote, paths, ignored, flags)
    decreases |paths|
  {
    if paths == [] {
      assert DeleteSet(g.remote, paths, ignored, flags) == {};
    } else {
      var p := paths[0];
      var q := if ignored(p) then g else CheckRemoteFile(g, p, flags);
      RemotePassKinds(q, paths[1..], ignored, flags);
      DeleteSetCons(g.remote, paths, ignored, flags);
      if q.ops != g.ops {
        var op := q.ops[|g.ops|];
        assert q.ops == g.ops + [op];
        PathsOfSnoc(g.ops, op, Add);
        PathsOfSnoc(g.ops, op, Replace);
        PathsOfSnoc(g.ops, op, Delete);
      }
    }
  }

  /**
   Which paths get which operation, for a remote store as loaded (nothing
   seen): an Add for each non-ignored local path the remote store lacks when
   new files are diffed, a Replace for each non-ignored path both stores
   hold with different digests when changed files are diffed, and a Delete
   for each non-ignored remote path the local store lacks when deleted files
   are diffed. In particular a remote path that a non-ignored local path
   matches is never deleted.
   */
  lemma GenerateKinds(local: Store, remote: Store, ignored: string -> bool, flags: Flags)
    requires local.Valid() && remote.Valid()
    requires AllUnseen(remote)
    ensures var r := Generate(local, remote, ignored, flags);
      && PathsOf(r.ops, Add)
         == (set p | p in local.entries && !ignored(p) && p !in remote.entries && flags.diffNew)
      && PathsOf(r.ops, Replace)
         == (set p | p in local.entries && !ignored(p) && p in remote.entries && flags.diffChanged
                       && local.entries[p].digest != remote.entries[p].digest)
      && PathsOf(r.ops, Delete)
         == (set p | p in remote.entries && !ignored(p) && p !in local.entries && flags.diffDeleted)
  {
    var g := Start(remote);
    var a := LocalPass(g, local, local.keys, ignored, flags);
    var r := RemotePass(a, a.remote.keys, ignored, flags);
    assert Generate(local, remote, ignored, flags) == r;
    LocalPassKinds(g, local, local.keys, ignored, flags);
    LocalPassRemote(g, local, local.keys, ignored, flags);
    RemotePassKinds(a, a.remote.keys, ignored, flags);
    LocalSetsAll(local, remote, ignored, flags);
    DeleteSetAll(local, remote, a.remote, ignored, flags);
  }

  /** Phase one visits every local path. */
  lemma LocalSetsAll(local: Store, remote: Store, ignored: string -> bool, flags: Flags)
    requires local.Valid()
    ensures AddSet(remote, local.keys, ignored, flags)
      == (set p | p in local.entries && !ignored(p) && p !in remote.entries && flags.diffNew)
    ensures ReplaceSet(local, remote, local.keys, ignored, flags)
      == (set p | p in local.entries && !ignored(p) && p in remote.entries && flags.diffChanged
                    && local.entries[p].digest != remote.entries[p].digest)
  {
  }

  /** After phase one has marked the non-ignored local paths, the still-unseen non-ignored remote paths are the remote-only ones. */
  lemma DeleteSetAll(local: Store, remote: Store, marked: Store, ignored: string -> bool, flags: Flags)
    requires marked.Valid()
    requires marked.keys == remote.keys && marked.entries.Keys == remote.entries.Keys
    requires forall k :: k in remote.entries ==>
      (marked.entries[k].seen <==> remote.entries[k].seen || (k in local.keys && !ignored(k)))
    requires AllUnseen(remote)
    requires local.Valid()
    ensures DeleteSet(marked, marked.keys, ignored, flags)
      == (set p | p in remote.entries && !ignored(p) && p !in local.entries && flags.diffDeleted)
  {
  }

  /**
   Operations before `m` are Adds and Replaces in local-store order, those
   from `m` on are Deletes in remote-store order.
   */
  ghost predicate PhaseSplit(ops: seq<Op>, m: nat, localKeys: seq<string>, remoteKeys: seq<string>)
  {
    && m <= |ops|
    && (forall i :: 0 <= i < m ==> ops[i].kind != Delete)
    && (forall i :: m <= i < |ops| ==> ops[i].kind == Delete)
    && Subsequence(Paths(ops[..m]), localKeys)
    && Subsequence(Paths(ops[m..]), remoteKeys)
  }

  /**
   The schedule: every Add and Replace comes before every Delete; the Adds
   and Replaces follow the local store's order and the Deletes the remote
   store's; no operation names an ignored path.
   */
  lemma GenerateOrder(local: Store, remote: Store, ignored: string -> bool, flags: Flags)
    requires local.Valid() && remote.Valid()
    ensures var r := Generate(local, remote, ignored, flags);
      && (forall i :: 0 <= i < |r.ops| ==> !ignored(r.ops[i].path))
      && exists m :: PhaseSplit(r.ops, m, local.keys, remote.keys)
  {
    var g := Start(remote);
    var a := LocalPass(g, local, local.keys, ignored, flags);
    LocalPassOps(g, local, local.keys, ignored, flags);
    LocalPassRemote(g, local, local.keys, ignored, flags);
    RemotePassOps(a, a.remote.keys, ignored, flags);
    OrderCore(a.ops, RemotePass(a, a.remote.keys, ignored, flags).ops, local.keys, remote.keys, ignored);
  }

  lemma OrderCore(front: seq<Op>, ops: seq<Op>, localKeys: seq<string>, remoteKeys: seq<string>, ignored: string -> bool)
    requires |front| <= |ops| && ops[..|front|] == front
    requires forall i :: 0 <= i < |front| ==> front[i].kind != Delete && !ignored(front[i].path)
    requires Subsequence(Paths(front[0..]), localKeys)
    requires forall i :: |front| <= i < |ops| ==> ops[i].kind == Delete && !ignored(ops[i].path)
    requires Subsequence(Paths(ops[|front|..]), remoteKeys)
    ensures forall i :: 0 <= i < |ops| ==> !ignored(ops[i].path)
    ensures PhaseSplit(ops, |front|, localKeys, remoteKeys)
  {
    assert front[0..] == front;
    forall i | 0 <= i < |front|
      ensures ops[i] == front[i]
    {
      assert ops[..|front|][i] == ops[i];
    }
  }

  /** The local store's paths are all distinct from the paths phase two deletes, so no path is named twice. */
  lemma GenerateDistinct(local: Store, remote: Store, ignored: string -> bool, flags: Flags)
    requires local.Valid() && remote.Valid()
    requires AllUnseen(remote)
    ensures var r := Generate(local, remote, ignored, flags);
      Distinct(Paths(r.ops))
  {
    var r := Generate(local, remote, ignored, flags);
    GenerateOrder(local, remote, ignored, flags);
    GenerateKinds(local, remote, ignored, flags);
    var m :| PhaseSplit(r.ops, m, local.keys, remote.keys);
    PathsOfMembers(r.ops, Delete);
    DistinctCore(r.ops, m, local, remote.keys, PathsOf(r.ops, Delete));
  }

  lemma DistinctCore(ops: seq<Op>, m: nat, local: Store, remoteKeys: seq<string>, deleted: set<string>)
    requires local.Valid() && Distinct(remoteKeys)
    requires PhaseSplit(ops, m, local.keys, remoteKeys)
    requires forall i :: 0 <= i < |ops| && ops[i].kind == Delete ==> ops[i].path in deleted
    requires forall p :: p in deleted ==> p !in local.entries
    ensures Distinct(Paths(ops))
  {
    var front, back := Paths(ops[..m]), Paths(ops[m..]);
    SubsequenceDistinct(front, local.keys);
    SubsequenceDistinct(back, remoteKeys);
    SubsequenceMembers(front, local.keys);
    forall i, j | 0 <= i < j < |ops|
      ensures Paths(ops)[i] != Paths(ops)[j]
    {
      if i < m && m <= j {
        assert Paths(ops)[i] == front[i];
        assert front[i] in local.keys;
        assert ops[j].path in deleted;
      } else if m <= i {
        assert Paths(ops)[i] == back[i - m] && Paths(ops)[j] == back[j - m];
      } else {
        assert Paths(ops)[i] == front[i] && Paths(ops)[j] == front[j];
      }
    }
  }

  /**
   The counters count distinct paths: `new`, `changed` and `deleted` are
   the numbers of paths that get an Add, a Replace and a Delete.
   */
  lemma GenerateCounts(local: Store, remote: Store, ignored: string -> bool, flags: Flags)
    requires local.Valid() && remote.Valid()
    requires AllUnseen(remote)
    ensures var r := Generate(local, remote, ignored, flags);
      && r.counters.added
         == |set p | p in local.entries && !ignored(p) && p !in remote.entries && flags.diffNew|
      && r.counters.changed
         == |set p | p in local.entries && !ignored(p) && p in remote.entries && flags.diffChanged
                       && local.entries[p].digest != remote.entries[p].digest|
      && r.counters.deleted
         == |set p | p in remote.entries && !ignored(p) && p !in local.entries && flags.diffDeleted|
  {
    var r := Generate(local, remote, ignored, flags);
    GenerateKinds(local, remote, ignored, flags);
    GenerateDistinct(local, remote, ignored, flags);
    assert DistinctPaths(r.ops) by {
      forall i, j | 0 <= i < j < |r.ops|
        ensures r.ops[i].path != r.ops[j].path
      {
        assert Paths(r.ops)[i] == r.ops[i].path && Paths(r.ops)[j] == r.ops[j].path;
      }
    }
    CountDistinct(r.ops, Add);
    CountDistinct(r.ops, Replace);
    CountDistinct(r.ops, Delete);
  }

  /**
   The only effect on the remote store: same paths, order and digests, and
   a loaded (unseen) store ends with exactly the non-ignored local paths
   marked seen.
   */
  lemma GenerateRemote(local: Store, remote: Store, ignored: string -> bool, flags: Flags)
    requires local.Valid() && remote.Valid()
    requires AllUnseen(remote)
    ensures var r := Generate(local, remote, ignored, flags);
      && r.remote.keys == remote.keys
      && r.remote.entries.Keys == remote.entries.Keys
      && forall k :: k in remote.entries ==>
           && r.remote.entries[k].digest == remote.entries[k].digest
           && (r.remote.entries[k].seen <==> k in local.entries && !ignored(k))
  {
    LocalPassRemote(Start(remote), local, local.keys, ignored, flags);
  }

  /**
   The whole patch generator: load both database files and the ignore list,
   then `run` with `match_ignorelist` as the ignore test. No emitted
   operation names a path any ignore pattern matches.
   */
  function Diff(localFile: Option<string>, remoteFile: Option<string>, ignoreFile: Option<string>,
                fnmatch: (string, string) -> bool, flags: Flags): (r: Gen)
    ensures forall i, j :: 0 <= i < |r.ops| && 0 <= j < |Ignore.ReadIgnorelist(ignoreFile)| ==>
      !fnmatch(r.ops[i].path, Ignore.ReadIgnorelist(ignoreFile)[j])
    ensures forall i :: 0 <= i < |r.ops| ==> r.ops[i].index == i
    ensures r.taridx == |r.ops| == r.counters.added + r.counters.changed + r.counters.deleted
  {
    var patterns := Ignore.ReadIgnorelist(ignoreFile);
    var local, remote := Codec.ReadDatabase(localFile), Codec.ReadDatabase(remoteFile);
    var ignored := p => Ignore.MatchIgnorelist(patterns, p, fnmatch);
    GenerateOrder(local, remote, ignored, flags);
    Generate(local, remote, ignored, flags)
  }

  /**
   From the files: a Delete for exactly the remote paths that no pattern
   matches and the local database lacks, when deleted files are diffed; an
   Add for exactly the unmatched local paths the remote database lacks,
   when new files are diffed.
   */
  lemma DiffAddsAndDeletes(localFile: Option<string>, remoteFile: Option<string>, ignoreFile: Option<string>,
                           fnmatch: (string, string) -> bool, flags: Flags)
    ensures var r := Diff(localFile, remoteFile, ignoreFile, fnmatch, flags);
      var local, remote := Codec.ReadDatabase(localFile), Codec.ReadDatabase(remoteFile);
      var patterns := Ignore.ReadIgnorelist(ignoreFile);
      && (forall p :: p in PathsOf(r.ops, Add) <==>
            p in local.entries && p !in remote.entries && flags.diffNew
            && forall j :: 0 <= j < |patterns| ==> !fnmatch(p, patterns[j]))
      && (forall p :: p in PathsOf(r.ops, Delete) <==>
            p in remote.entries && p !in local.entries && flags.diffDeleted
            && forall j :: 0 <= j < |patterns| ==> !fnmatch(p, patterns[j]))
  {
    var patterns := Ignore.ReadIgnorelist(ignoreFile);
    var local, remote := Codec.ReadDatabase(localFile), Codec.ReadDatabase(remoteFile);
    var ignored := p => Ignore.MatchIgnorelist(patterns, p, fnmatch);
    GenerateKinds(local, remote, ignored, flags);
  }

  // ---------------------------------------------------------------------
  // The archive

  /** What an archive entry holds: literal text, or the local file at a path. */
  datatype Payload = Inline(text: string) | LocalFile(path: string)

  /** One tar entry: its name and its payload. */
  datatype Member = Member(name: string, payload: Payload)

  const MetaSuffix := "meta"
  const DataSuffix := "data"

  /** The decimal digit character for `d`. */
  function Digit(d: nat): (c: char)
    requires d < 10
    ensures '0' <= c <= '9'
  {
    (d + '0' as int) as char
  }

  /** `str(n)` for a natural number: its decimal digits, most significant first. */
  function NatToString(n: nat): (r: string)
    ensures 1 <= |r|
    ensures n < 10 <==> |r| == 1
    ensures forall i :: 0 <= i < |r| ==> '0' <= r[i] <= '9'
    ensures r[0] == '0' <==> n == 0
  {
    if n < 10 then [Digit(n)] else NatToString(n / 10) + [Digit(n % 10)]
  }

  /** The number a string of decimal digits spells, most significant first. */
  function DecimalValue(s: string): nat
    requires forall i :: 0 <= i < |s| ==> '0' <= s[i] <= '9'
  {
    if s == [] then 0
    else 10 * DecimalValue(s[..|s| - 1]) + (s[|s| - 1] as int - '0' as int)
  }

  /** Reading the written digits back gives the number. */
  lemma {:induction false} NatToStringValue(n: nat)
    ensures DecimalValue(NatToString(n)) == n
  {
    if 10 <= n {
      var s := NatToString(n);
      NatToStringValue(n / 10);
      assert s[..|s| - 1] == NatToString(n / 10);
    }
  }

  /** Different indices are written as different decimal strings. */
  lemma {:induction false} NatToStringInjective(a: nat, b: nat)
    ensures NatToString(a) == NatToString(b) ==> a == b
    decreases a
  {
    if NatToString(a) == NatToString(b) && 10 <= a && 10 <= b {
      var s := NatToString(a);
      var x, y := NatToString(a / 10), NatToString(b / 10);
      assert s == x + [Digit(a % 10)] == y + [Digit(b % 10)];
      assert x == s[..|s| - 1] == y;
      assert a % 10 == b % 10;
      NatToStringInjective(a / 10, b / 10);
    }
  }

  /** The name of the entry of kind `suffix` for index `i`: `str(i) + suffix`. */
  function EntryName(i: nat, suffix: string): string
  {
    NatToString(i) + suffix
  }

  /** Entry names with suffixes of one length determine both the index and the suffix. */
  lemma EntryNameInjective(a: nat, b: nat, s: string, t: string)
    requires |s| == |t|
    ensures EntryName(a, s) == EntryName(b, t) ==> a == b && s == t
  {
    if EntryName(a, s) == EntryName(b, t) {
      var x := EntryName(a, s);
      assert NatToString(a) == x[..|x| - |s|] == NatToString(b);
      assert s == x[|x| - |s|..] == t;
      NatToStringInjective(a, b);
    }
  }

  /** The meta payload: the operation word, a newline, the path. */
  function MetaText(k: Kind, path: string): string
  {
    KindName(k) + "\n" + path
  }

  function KindOf(word: string): (r: Option<Kind>)
    ensures forall k :: r == Some(k) <==> word == KindName(k)
  {
    if word == "add" then Some(Add)
    else if word == "replace" then Some(Replace)
    else if word == "delete" then Some(Delete)
    else None
  }

  /** Read a meta payload: the operation word up to the first newline, the path after it. */
  function ParseMeta(text: string): Option<(Kind, string)>
  {
    var n := Text.LineEnd(text);
    if n == |text| then None
    else
      match KindOf(text[..n])
      case None => None
      case Some(k) => Some((k, text[n + 1..]))
  }

  /** A meta payload names its operation and path unambiguously, whatever characters the path holds. */
  lemma MetaRoundTrip(k: Kind, path: string)
    ensures ParseMeta(MetaText(k, path)) == Some((k, path))
  {
    var word := KindName(k);
    var text := MetaText(k, path);
    var n := Text.LineEnd(text);
    assert forall i :: 0 <= i < |word| ==> text[i] == word[i] && word[i] != '\n';
    assert text[|word|] == '\n';
    assert n == |word|;
    assert text[..n] == word;
    assert text[n + 1..] == path;
  }

  /** The `{i}meta` entry of an operation. */
  function MetaMember(op: Op): Member
  {
    Member(EntryName(op.index, MetaSuffix), Inline(MetaText(op.kind, op.path)))
  }

  /** The `{i}data` entry of an operation: the local file's content. */
  function DataMember(op: Op): Member
  {
    Member(EntryName(op.index, DataSuffix), LocalFile(op.path))
  }

  /** The entries one operation writes: its meta entry, then its data entry for an Add or a Replace. */
  function Members(op: Op): seq<Member>
  {
    if op.kind == Delete then [MetaMember(op)] else [MetaMember(op), DataMember(op)]
  }

  /** The archive: each operation's entries, appended in emission order. */
  function Archive(ops: seq<Op>): seq<Member>
  {
    Flatten(ops, Members)
  }

  /** Two entries per Add or Replace, one per Delete. */
  lemma {:induction false} ArchiveSize(ops: seq<Op>)
    ensures |Archive(ops)| == CountKind(ops, Add) + CountKind(ops, Replace) + |ops|
  {
    if ops != [] {
      ArchiveSize(ops[..|ops| - 1]);
    }
  }

  /**
   The archive holds exactly: the meta entry of every operation, and the
   data entry of every Add and Replace.
   */
  lemma ArchiveContents(ops: seq<Op>)
    ensures forall m :: m in Archive(ops) <==> exists i :: 0 <= i < |ops| && Contributes(ops[i], m)
  {
    FlattenMembers(ops, Members);
    forall op: Op, m: Member
      ensures m in Members(op) <==> Contributes(op, m)
    {
    }
  }

  /** `m` is one of the entries `op` writes: its meta entry, or the data entry of an Add or a Replace. */
  predicate Contributes(op: Op, m: Member)
  {
    m == MetaMember(op) || (op.kind != Delete && m == DataMember(op))
  }

  /** With distinct indices no two archive entries share a name. */
  lemma {:induction false} ArchiveNamesUnique(ops: seq<Op>)
    requires forall i, j :: 0 <= i < j < |ops| ==> ops[i].index != ops[j].index
    ensures forall i, j :: 0 <= i < j < |Archive(ops)| ==> Archive(ops)[i].name != Archive(ops)[j].name
  {
    if ops != [] {
      var n := |ops| - 1;
      var init := ops[..n];
      var last := ops[n].index;
      ArchiveNamesUnique(init);
      ArchiveContents(init);
      var a: seq<Member> := Archive(init);
      var ms: seq<Member> := Members(ops[n]);
      EntryNameInjective(last, last, MetaSuffix, DataSuffix);
      forall i, j | 0 <= i < j < |a + ms|
        ensures (a + ms)[i].name != (a + ms)[j].name
      {
        if i < |a| && |a| <= j {
          assert a[i] in a;
          var k :| 0 <= k < n && Contributes(init[k], a[i]);
          assert init[k] == ops[k];
          DifferentIndexNames(a[i], init[k], ms[j - |a|], ops[n]);
        }
      }
    }
  }

  /** Entries of two operations with different indices have different names. */
  lemma DifferentIndexNames(x: Member, op: Op, y: Member, other: Op)
    requires Contributes(op, x)
    requires y in Members(other)
    requires op.index != other.index
    ensures x.name != y.name
  {
    EntryNameInjective(op.index, other.index, MetaSuffix, MetaSuffix);
    EntryNameInjective(op.index, other.index, MetaSuffix, DataSuffix);
    EntryNameInjective(op.index, other.index, DataSuffix, MetaSuffix);
    EntryNameInjective(op.index, other.index, DataSuffix, DataSuffix);
  }

  /**
   The archive `run` writes: uniquely named entries, one meta entry per
   operation plus one data entry per Add and Replace.
   */
  lemma GenerateArchive(local: Store, remote: Store, ignored: string -> bool, flags: Flags)
    requires local.Valid() && remote.Valid()
    ensures var r := Generate(local, remote, ignored, flags);
      var tar := Archive(r.ops);
      && |tar| == |r.ops| + r.counters.added + r.counters.changed
      && forall i, j :: 0 <= i < j < |tar| ==> tar[i].name != tar[j].name
  {
    var r := Generate(local, remote, ignored, flags);
    ArchiveSize(r.ops);
    ArchiveNamesUnique(r.ops);
  }
}

=== FILE: reconcile.dfy ===
/**
 The verification script (verify.py): walk the files of a tree against one
 checksum store, classify every file as verified, failed or new, sweep the
 store for entries whose file was not encountered, and decide whether the
 database file must be rewritten.

 The content digest (`md5sum`) is the parameter `hash`; the directory walk is
 the parameter `walk`, the paths in the order `os.walk` yields them.
 */
module Reconcile {
  import opened Basics
  import opened Store
  import Codec
  import Text

  /** The four mode switches at the head of the script. */
  datatype Flags = Flags(verifyExisting: bool, addNew: bool, removeDeleted: bool, updateChanged: bool)

  /** The values the script ships with. */
  const Defaults := Flags(verifyExisting := true, addNew := true, removeDeleted := false, updateChanged := false)

  datatype Counters = Counters(verified: nat, failed: nat, added: nat, removed: nat)

  const NoCounts := Counters(0, 0, 0, 0)

  function Plus(a: Counters, b: Counters): Counters
  {
    Counters(a.verified + b.verified, a.failed + b.failed, a.added + b.added, a.removed + b.removed)
  }

  /** The state the pass threads: the store being reconciled and the four counters. */
  datatype Pass = Pass(store: Store, counters: Counters)

  /**
   The digest an existing entry is left with: the computed digest replaces a
   mismatching stored one only when verification and update-changed are both on.
   */
  function Refreshed(stored: string, computed: string, flags: Flags): string
  {
    if flags.verifyExisting && flags.updateChanged && computed != stored then computed else stored
  }

  /** One walked file (verify.py, body of the walk loop). */
  function CheckFile(p: Pass, path: string, flags: Flags, hash: string -> string): (r: Pass)
    requires p.store.Valid()
    ensures r.store.Valid()
    ensures r.counters.removed == p.counters.removed
    ensures path in p.store.entries ==>
      var e := p.store.entries[path];
      && r.store.keys == p.store.keys
      && r.store.entries == p.store.entries[path := Entry(Refreshed(e.digest, hash(path), flags), true)]
      && r.counters.added == p.counters.added
      && (flags.verifyExisting && hash(path) == e.digest ==>
            r.counters == p.counters.(verified := p.counters.verified + 1))
      && (flags.verifyExisting && hash(path) != e.digest ==>
            r.counters == p.counters.(failed := p.counters.failed + 1))
      && (!flags.verifyExisting ==> r.counters == p.counters)
    ensures path !in p.store.entries ==>
      && r.counters == p.counters.(added := p.counters.added + 1)
      && (flags.addNew ==> r.store.keys == p.store.keys + [path])
      && (flags.addNew ==> r.store.entries == p.store.entries[path := Entry(hash(path), true)])
      && (!flags.addNew ==> r.store == p.store)
  {
    var c := p.counters;
    if path in p.store.entries then
      var entry := p.store.entries[path];
      var (digest, c') :=
        if !flags.verifyExisting then (entry.digest, c)
        else
          var checksum := hash(path);
          if checksum != entry.digest then
            (if flags.updateChanged then checksum else entry.digest, c.(failed := c.failed + 1))
          else (entry.digest, c.(verified := c.verified + 1));
      Pass(Put(p.store, path, Entry(digest, true)), c')
    else
      var s := if flags.addNew then Put(p.store, path, Entry(hash(path), true)) else p.store;
      Pass(s, c.(added := c.added + 1))
  }

  /** The walk loop: every walked file in turn. */
  function Walk(p: Pass, walk: seq<string>, flags: Flags, hash: string -> string): (r: Pass)
    requires p.store.Valid()
    ensures r.store.Valid()
    ensures r.counters.removed == p.counters.removed
    decreases |walk|
  {
    if walk == [] then p else Walk(CheckFile(p, walk[0], flags, hash), walk[1..], flags, hash)
  }

  /** The keys whose entry is still unseen, in store order (the deleted-file loop). */
  function UnseenKeys(keys: seq<string>, entries: map<string, Entry>): (r: seq<string>)
    requires forall k :: k in keys ==> k in entries
    ensures forall k :: k in r <==> k in keys && !entries[k].seen
    ensures Subsequence(r, keys)
  {
    if keys == [] then []
    else
      var rest := UnseenKeys(keys[1..], entries);
      assert forall k :: k in keys <==> k == keys[0] || k in keys[1..];
      if entries[keys[0]].seen then rest
      else
        assert ([keys[0]] + rest)[1..] == rest;
        [keys[0]] + rest
  }

  /** `for filepath in todelete: del database[filepath]`. */
  function DeleteAll(s: Store, todelete: seq<string>): (r: Store)
    requires s.Valid()
    ensures r.Valid()
    ensures forall k :: k in r.entries <==> k in s.entries && k !in todelete
    ensures forall k :: k in r.entries ==> r.entries[k] == s.entries[k]
    ensures Subsequence(r.keys, s.keys)
    decreases |todelete|
  {
    if todelete == [] then
      SubsequenceReflexive(s.keys);
      s
    else
      var s' := Remove(s, todelete[0]);
      var r := DeleteAll(s', todelete[1..]);
      assert forall k :: k in todelete <==> k == todelete[0] || k in todelete[1..];
      SubsequenceTransitive(r.keys, s'.keys, s.keys);
      r
  }

  /** The entries still unseen after the walk: the files that no longer exist. */
  function UnseenSet(s: Store): set<string>
  {
    set k | k in s.entries && !s.entries[k].seen
  }

  /**
   The deferred-deletion sweep: every still-unseen entry counts as removed
   once, and is deleted iff remove-deleted is on; seen entries stay.
   */
  function Sweep(p: Pass, flags: Flags): (r: Pass)
    requires p.store.Valid()
    ensures r.store.Valid()
    ensures r.counters == p.counters.(removed := p.counters.removed + |UnseenSet(p.store)|)
    ensures forall k :: k in r.store.entries <==>
      k in p.store.entries && (p.store.entries[k].seen || !flags.removeDeleted)
    ensures forall k :: k in r.store.entries ==> r.store.entries[k] == p.store.entries[k]
    ensures Subsequence(r.store.keys, p.store.keys)
    ensures UnseenSet(p.store) == {} || !flags.removeDeleted ==> r.store == p.store
  {
    var unseen := UnseenKeys(p.store.keys, p.store.entries);
    var todelete := if flags.removeDeleted then unseen else [];
    SubsequenceDistinct(unseen, p.store.keys);
    DistinctCardinality(unseen);
    assert (set k | k in unseen) == UnseenSet(p.store);
    Pass(DeleteAll(p.store, todelete), p.counters.(removed := p.counters.removed + |unseen|))
  }

  /** The rewrite decision: only a category of change the flags actually applied forces a rewrite. */
  function NeedsRewrite(c: Counters, flags: Flags): bool
  {
    || (c.failed > 0 && flags.updateChanged)
    || (c.added > 0 && flags.addNew)
    || (c.removed > 0 && flags.removeDeleted)
  }

  /** What one run leaves behind: the store, the counters, and the database text if it was rewritten. */
  datatype Report = Report(store: Store, counters: Counters, written: Option<string>)

  /** The whole script after loading: walk, sweep, rewrite decision and serialisation. */
  function Reconcile(s: Store, walk: seq<string>, flags: Flags, hash: string -> string): (r: Report)
    requires s.Valid()
    ensures r.store.Valid()
    ensures r.written.Some? <==>
      || (r.counters.failed > 0 && flags.updateChanged)
      || (r.counters.added > 0 && flags.addNew)
      || (r.counters.removed > 0 && flags.removeDeleted)
    ensures r.written.Some? ==> r.written.value == Codec.WriteDatabase(r.store)
  {
    var walked := Walk(Pass(s, NoCounts), walk, flags, hash);
    var swept := Sweep(walked, flags);
    var written := if NeedsRewrite(swept.counters, flags) then Some(Codec.WriteDatabase(swept.store)) else None;
    Report(swept.store, swept.counters, written)
  }

  // ----- Reference classification, against the store as loaded -----

  /** How the walk classifies a path, judged against the store as it was before the walk. */
  datatype Class = Verified | Failed | Unverified | New

  function Classify(s0: map<string, Entry>, path: string, flags: Flags, hash: string -> string): Class
  {
    if path !in s0 then New
    else if !flags.verifyExisting then Unverified
    else if hash(path) == s0[path].digest then Verified
    else Failed
  }

  /** How many walked paths fall in class `c`. */
  function CountClass(walk: seq<string>, s0: map<string, Entry>, flags: Flags, hash: string -> string, c: Class): nat
  {
    if walk == [] then 0
    else (if Classify(s0, walk[0], flags, hash) == c then 1 else 0) + CountClass(walk[1..], s0, flags, hash, c)
  }

  /** The counters the walk should end with, computed path by path from the initial store. */
  function Tally(walk: seq<string>, s0: map<string, Entry>, flags: Flags, hash: string -> string): Counters
  {
    Counters(
      CountClass(walk, s0, flags, hash, Verified),
      CountClass(walk, s0, flags, hash, Failed),
      CountClass(walk, s0, flags, hash, New),
      0)
  }

  /** The walked paths that are not in the initial store, in walk order. */
  function NewPaths(walk: seq<string>, s0: map<string, Entry>): seq<string>
  {
    if walk == [] then []
    else if walk[0] in s0 then NewPaths(walk[1..], s0)
    else [walk[0]] + NewPaths(walk[1..], s0)
  }

  /** The entries the walk should end with, computed key by key from the initial store. */
  ghost function Expected(s0: map<string, Entry>, walk: seq<string>, flags: Flags, hash: string -> string): map<string, Entry>
  {
    var added := if flags.addNew then (set k | k in walk) else {};
    map k | k in s0.Keys + added ::
      if k !in walk then s0[k]
      else if k in s0 then Entry(Refreshed(s0[k].digest, hash(k), flags), true)
      else Entry(hash(k), true)
  }

  /** Two stores that agree, on every path of `walk`, on presence and digest. */
  ghost predicate AgreeOn(walk: seq<string>, s1: map<string, Entry>, s2: map<string, Entry>)
  {
    forall k :: k in walk ==> (k in s1 <==> k in s2) && (k in s1 ==> s1[k].digest == s2[k].digest)
  }

  lemma {:induction false} CountClassFrame(walk: seq<string>, s1: map<string, Entry>, s2: map<string, Entry>, flags: Flags, hash: string -> string, c: Class)
    requires AgreeOn(walk, s1, s2)
    ensures CountClass(walk, s1, flags, hash, c) == CountClass(walk, s2, flags, hash, c)
  {
    if walk != [] {
      assert walk[0] in walk;
      assert forall k :: k in walk[1..] ==> k in walk;
      CountClassFrame(walk[1..], s1, s2, flags, hash, c);
    }
  }

  lemma {:induction false} NewPathsFrame(walk: seq<string>, s1: map<string, Entry>, s2: map<string, Entry>)
    requires AgreeOn(walk, s1, s2)
    ensures NewPaths(walk, s1) == NewPaths(walk, s2)
  {
    if walk != [] {
      assert walk[0] in walk;
      assert forall k :: k in walk[1..] ==> k in walk;
      NewPathsFrame(walk[1..], s1, s2);
    }
  }

  /** One walk step changes only the entry of the path it handles. */
  lemma WalkStepFrame(p: Pass, walk: seq<string>, flags: Flags, hash: string -> string)
    requires p.store.Valid()
    requires walk != [] && Distinct(walk)
    ensures AgreeOn(walk[1..], p.store.entries, CheckFile(p, walk[0], flags, hash).store.entries)
  {
    HeadNotInTail(walk);
  }

  /** One walk step, seen through the reference map. */
  lemma WalkStepExpected(p: Pass, walk: seq<string>, flags: Flags, hash: string -> string)
    requires p.store.Valid()
    requires walk != [] && Distinct(walk)
    ensures Expected(CheckFile(p, walk[0], flags, hash).store.entries, walk[1..], flags, hash)
         == Expected(p.store.entries, walk, flags, hash)
  {
    HeadNotInTail(walk);
    var q := CheckFile(p, walk[0], flags, hash);
    var e1 := Expected(q.store.entries, walk[1..], flags, hash);
    var e2 := Expected(p.store.entries, walk, flags, hash);
    forall k
      ensures k in e1 <==> k in e2
      ensures k in e1 ==> e1[k] == e2[k]
    {
      if k == walk[0] {
      } else {
        assert k in q.store.entries <==> k in p.store.entries;
      }
    }
    assert e1 == e2;
  }

  /** One walk step, seen through the reference counters. */
  lemma WalkStepCounts(p: Pass, walk: seq<string>, flags: Flags, hash: string -> string)
    requires p.store.Valid()
    requires walk != []
    ensures Plus(CheckFile(p, walk[0], flags, hash).counters, Tally(walk[1..], p.store.entries, flags, hash))
         == Plus(p.counters, Tally(walk, p.store.entries, flags, hash))
  {
    var q := CheckFile(p, walk[0], flags, hash);
    var s0 := p.store.entries;
    var c := Classify(s0, walk[0], flags, hash);
    var t1, t := Tally(walk[1..], s0, flags, hash), Tally(walk, s0, flags, hash);
    assert t.verified == (if c == Verified then 1 else 0) + t1.verified;
    assert t.failed == (if c == Failed then 1 else 0) + t1.failed;
    assert t.added == (if c == New then 1 else 0) + t1.added;
    match c
    case Verified =>
      assert q.counters == p.counters.(verified := p.counters.verified + 1);
    case Failed =>
      assert q.counters == p.counters.(failed := p.counters.failed + 1);
    case New =>
      assert q.counters == p.counters.(added := p.counters.added + 1);
    case Unverified =>
      assert q.counters == p.counters;
  }

  /** One walk step, seen through the reference key order. */
  lemma WalkStepKeys(p: Pass, walk: seq<string>, flags: Flags, hash: string -> string)
    requires p.store.Valid()
    requires walk != []
    ensures CheckFile(p, walk[0], flags, hash).store.keys
              + (if flags.addNew then NewPaths(walk[1..], p.store.entries) else [])
         == p.store.keys + (if flags.addNew then NewPaths(walk, p.store.entries) else [])
  {
    var qk := CheckFile(p, walk[0], flags, hash).store.keys;
    var rest := NewPaths(walk[1..], p.store.entries);
    if flags.addNew && walk[0] !in p.store.entries {
      AppendStep(p.store.keys, qk, walk[0], rest, NewPaths(walk, p.store.entries));
    } else if flags.addNew {
      assert qk == p.store.keys;
      assert NewPaths(walk, p.store.entries) == rest;
    } else {
      assert qk == p.store.keys;
    }
  }

  lemma AppendStep(keys: seq<string>, qk: seq<string>, w: string, rest: seq<string>, all: seq<string>)
    requires qk == keys + [w]
    requires all == [w] + rest
    ensures qk + rest == keys + all
  {
  }

  /**
   The walk, key by key: walked entries end up marked seen with their
   refreshed digest, new walked paths are appended iff add-new is on,
   unwalked entries are untouched, and each counter counts its class.
   */
  lemma {:induction false} WalkEffect(p: Pass, walk: seq<string>, flags: Flags, hash: string -> string)
    requires p.store.Valid()
    requires Distinct(walk)
    ensures var r := Walk(p, walk, flags, hash);
      && r.counters == Plus(p.counters, Tally(walk, p.store.entries, flags, hash))
      && r.store.entries == Expected(p.store.entries, walk, flags, hash)
      && r.store.keys == p.store.keys + (if flags.addNew then NewPaths(walk, p.store.entries) else [])
    decreases |walk|
  {
    if walk == [] {
      assert p.store.entries == Expected(p.store.entries, walk, flags, hash);
      assert p.store.keys + [] == p.store.keys;
    } else {
      var q := CheckFile(p, walk[0], flags, hash);
      assert Distinct(walk[1..]);
      WalkEffect(q, walk[1..], flags, hash);
      WalkStepFrame(p, walk, flags, hash);
      WalkStepExpected(p, walk, flags, hash);
      WalkStepCounts(p, walk, flags, hash);
      WalkStepKeys(p, walk, flags, hash);
      CountClassFrame(walk[1..], p.store.entries, q.store.entries, flags, hash, Verified);
      CountClassFrame(walk[1..], p.store.entries, q.store.entries, flags, hash, Failed);
      CountClassFrame(walk[1..], p.store.entries, q.store.entries, flags, hash, New);
      NewPathsFrame(walk[1..], p.store.entries, q.store.entries);
      assert (q.store.keys + (if flags.addNew then NewPaths(walk[1..], q.store.entries) else []))
        == p.store.keys + (if flags.addNew then NewPaths(walk, p.store.entries) else []);
    }
  }

  // ----- The whole pass -----

  /** The entries whose file the walk did not encounter and that were not already marked seen. */
  function Vanished(s: Store, walk: seq<string>): set<string>
  {
    set k | k in s.entries && k !in walk && !s.entries[k].seen
  }

  /**
   What a pass over `walk` must leave, key by key and counter by counter,
   judged against the store `s` as loaded: walked entries are marked seen
   with their refreshed digest; a new walked path is recorded iff add-new is
   on; an unwalked entry is dropped only when it was unseen and
   remove-deleted is on; the order of what is left is the loaded order
   followed by the recorded new paths; every counter counts its class, and
   `removed` counts each vanished entry once.
   */
  ghost predicate PassOutcome(s: Store, walk: seq<string>, flags: Flags, hash: string -> string, f: Store, c: Counters)
    requires s.Valid()
  {
    && c.verified == CountClass(walk, s.entries, flags, hash, Verified)
    && c.failed == CountClass(walk, s.entries, flags, hash, Failed)
    && c.added == CountClass(walk, s.entries, flags, hash, New)
    && c.removed == |Vanished(s, walk)|
    && (forall k :: k in walk && k in s.entries ==>
          k in f.entries && f.entries[k] == Entry(Refreshed(s.entries[k].digest, hash(k), flags), true))
    && (forall k :: k in walk && k !in s.entries ==>
          (k in f.entries <==> flags.addNew) && (k in f.entries ==> f.entries[k] == Entry(hash(k), true)))
    && (forall k :: k !in walk ==>
          (k in f.entries <==> k in s.entries && (s.entries[k].seen || !flags.removeDeleted))
          && (k in f.entries ==> f.entries[k] == s.entries[k]))
    && Subsequence(f.keys, s.keys + (if flags.addNew then NewPaths(walk, s.entries) else []))
  }

  /** The whole pass does what `PassOutcome` describes. */
  lemma ReconcileSummary(s: Store, walk: seq<string>, flags: Flags, hash: string -> string)
    requires s.Valid()
    requires Distinct(walk)
    ensures var r := Reconcile(s, walk, flags, hash);
      PassOutcome(s, walk, flags, hash, r.store, r.counters)
  {
    var walked := Walk(Pass(s, NoCounts), walk, flags, hash);
    WalkedEntries(s, walk, flags, hash);
    var swept := Sweep(walked, flags);
    assert Reconcile(s, walk, flags, hash).store == swept.store;
    assert Reconcile(s, walk, flags, hash).counters == swept.counters;
  }

  /** The walked store, key by key, with its unseen entries being exactly the vanished ones. */
  lemma WalkedEntries(s: Store, walk: seq<string>, flags: Flags, hash: string -> string)
    requires s.Valid()
    requires Distinct(walk)
    ensures var w := Walk(Pass(s, NoCounts), walk, flags, hash);
      && w.counters == Tally(walk, s.entries, flags, hash)
      && UnseenSet(w.store) == Vanished(s, walk)
      && w.store.keys == s.keys + (if flags.addNew then NewPaths(walk, s.entries) else [])
      && (forall k :: k in walk && k in s.entries ==>
            k in w.store.entries && w.store.entries[k] == Entry(Refreshed(s.entries[k].digest, hash(k), flags), true))
      && (forall k :: k in walk && k !in s.entries ==>
            (k in w.store.entries <==> flags.addNew) && (k in w.store.entries ==> w.store.entries[k] == Entry(hash(k), true)))
      && (forall k :: k !in walk ==>
            (k in w.store.entries <==> k in s.entries) && (k in w.store.entries ==> w.store.entries[k] == s.entries[k]))
  {
    var w := Walk(Pass(s, NoCounts), walk, flags, hash);
    WalkEffect(Pass(s, NoCounts), walk, flags, hash);
    ExpectedFacts(s, walk, flags, hash, w.store);
  }

  /** The reference map, key by key. */
  lemma ExpectedFacts(s: Store, walk: seq<string>, flags: Flags, hash: string -> string, w: Store)
    requires w.entries == Expected(s.entries, walk, flags, hash)
    ensures UnseenSet(w) == Vanished(s, walk)
    ensures forall k :: k in walk && k in s.entries ==>
      k in w.entries && w.entries[k] == Entry(Refreshed(s.entries[k].digest, hash(k), flags), true)
    ensures forall k :: k in walk && k !in s.entries ==>
      (k in w.entries <==> flags.addNew) && (k in w.entries ==> w.entries[k] == Entry(hash(k), true))
    ensures forall k :: k !in walk ==>
      (k in w.entries <==> k in s.entries) && (k in w.entries ==> w.entries[k] == s.entries[k])
  {
    forall k
      ensures k in UnseenSet(w) <==> k in Vanished(s, walk)
    {
    }
  }

  /** Every walked path falls in exactly one class; with verification on, none is left unverified. */
  lemma {:induction false} ClassesPartition(walk: seq<string>, s0: map<string, Entry>, flags: Flags, hash: string -> string)
    ensures CountClass(walk, s0, flags, hash, Verified) + CountClass(walk, s0, flags, hash, Failed)
          + CountClass(walk, s0, flags, hash, New) + CountClass(walk, s0, flags, hash, Unverified) == |walk|
    ensures flags.verifyExisting ==> CountClass(walk, s0, flags, hash, Unverified) == 0
  {
    if walk != [] {
      ClassesPartition(walk[1..], s0, flags, hash);
    }
  }

  /** A class is counted iff some walked path falls in it. */
  lemma {:induction false} CountClassPositive(walk: seq<string>, s0: map<string, Entry>, flags: Flags, hash: string -> string, c: Class)
    ensures CountClass(walk, s0, flags, hash, c) > 0 <==>
      exists i :: 0 <= i < |walk| && Classify(s0, walk[i], flags, hash) == c
  {
    if walk != [] {
      CountClassPositive(walk[1..], s0, flags, hash, c);
      assert forall i :: 1 <= i < |walk| ==> walk[i] == walk[1..][i - 1];
      if CountClass(walk[1..], s0, flags, hash, c) > 0 {
        var i :| 0 <= i < |walk[1..]| && Classify(s0, walk[1..][i], flags, hash) == c;
        assert Classify(s0, walk[i + 1], flags, hash) == c;
      }
    }
  }

  /**
   Classification is complete: with verification on, every walked file is
   counted exactly once as verified, failed or new.
   */
  lemma ReconcileComplete(s: Store, walk: seq<string>, flags: Flags, hash: string -> string)
    requires s.Valid()
    requires Distinct(walk)
    requires flags.verifyExisting
    ensures var c := Reconcile(s, walk, flags, hash).counters;
      c.verified + c.failed + c.added == |walk|
  {
    ReconcileSummary(s, walk, flags, hash);
    ClassesPartition(walk, s.entries, flags, hash);
  }

  /**
   Idempotence: when the store holds exactly the walked paths with their
   current digests, a pass finds nothing failed, new or removed and does not
   rewrite the database, whatever the flags; a verifying pass verifies every file.
   */
  lemma ReconcileIdempotent(s: Store, walk: seq<string>, flags: Flags, hash: string -> string)
    requires s.Valid()
    requires Distinct(walk)
    requires forall k :: k in s.entries <==> k in walk
    requires forall k :: k in s.entries ==> s.entries[k].digest == hash(k)
    ensures var r := Reconcile(s, walk, flags, hash);
      && r.counters.failed == 0
      && r.counters.added == 0
      && r.counters.removed == 0
      && (flags.verifyExisting ==> r.counters.verified == |walk|)
      && r.written.None?
  {
    ReconcileSummary(s, walk, flags, hash);
    if flags.verifyExisting {
      ReconcileComplete(s, walk, flags, hash);
    }
    CountClassPositive(walk, s.entries, flags, hash, Failed);
    CountClassPositive(walk, s.entries, flags, hash, New);
    assert Vanished(s, walk) == {};
  }

  /** With nothing new to record, the walk leaves the key order as loaded. */
  lemma {:induction false} NewPathsNone(walk: seq<string>, s0: map<string, Entry>, flags: Flags, hash: string -> string)
    requires CountClass(walk, s0, flags, hash, New) == 0
    ensures NewPaths(walk, s0) == []
  {
    if walk != [] {
      NewPathsNone(walk[1..], s0, flags, hash);
    }
  }

  /**
   The database is rewritten iff what it would hold changes: some path is
   added or dropped, the order changes, or some digest changes.
   */
  lemma RewriteIffChanged(s: Store, walk: seq<string>, flags: Flags, hash: string -> string)
    requires s.Valid()
    requires Distinct(walk)
    ensures var r := Reconcile(s, walk, flags, hash);
      r.written.Some? <==> !SamePersisted(r.store, s)
  {
    var r := Reconcile(s, walk, flags, hash);
    ReconcileSummary(s, walk, flags, hash);
    RewriteIffChangedCore(s, walk, flags, hash, r.store, r.counters);
  }

  /** The rewrite decision against any outcome a pass may leave. */
  lemma RewriteIffChangedCore(s: Store, walk: seq<string>, flags: Flags, hash: string -> string, f: Store, c: Counters)
    requires s.Valid() && f.Valid()
    requires PassOutcome(s, walk, flags, hash, f, c)
    ensures NeedsRewrite(c, flags) <==> !SamePersisted(f, s)
  {
    if c.failed > 0 && flags.updateChanged {
      FailedChanges(s, walk, flags, hash, f, c);
    } else if c.added > 0 && flags.addNew {
      AddedChanges(s, walk, flags, hash, f, c);
    } else if c.removed > 0 && flags.removeDeleted {
      var k :| k in Vanished(s, walk);
      assert k !in Digests(f) && k in Digests(s);
    } else {
      KeepsContent(s, walk, flags, hash, f, c);
    }
  }

  /** An updated failure changes a digest. */
  lemma FailedChanges(s: Store, walk: seq<string>, flags: Flags, hash: string -> string, f: Store, c: Counters)
    requires s.Valid() && f.Valid()
    requires PassOutcome(s, walk, flags, hash, f, c)
    requires c.failed > 0 && flags.updateChanged
    ensures !SamePersisted(f, s)
  {
    CountClassPositive(walk, s.entries, flags, hash, Failed);
    var i :| 0 <= i < |walk| && Classify(s.entries, walk[i], flags, hash) == Failed;
    var k := walk[i];
    assert Digests(f)[k] != Digests(s)[k];
  }

  /** A recorded new file adds a path. */
  lemma AddedChanges(s: Store, walk: seq<string>, flags: Flags, hash: string -> string, f: Store, c: Counters)
    requires s.Valid() && f.Valid()
    requires PassOutcome(s, walk, flags, hash, f, c)
    requires c.added > 0 && flags.addNew
    ensures !SamePersisted(f, s)
  {
    CountClassPositive(walk, s.entries, flags, hash, New);
    var i :| 0 <= i < |walk| && Classify(s.entries, walk[i], flags, hash) == New;
    var k := walk[i];
    assert k in Digests(f) && k !in Digests(s);
  }

  lemma KeepsContent(s: Store, walk: seq<string>, flags: Flags, hash: string -> string, f: Store, c: Counters)
    requires s.Valid() && f.Valid()
    requires PassOutcome(s, walk, flags, hash, f, c)
    requires !NeedsRewrite(c, flags)
    ensures SamePersisted(f, s)
  {
    KeepsKeys(s, walk, flags, hash, f, c);
    KeepsDigests(s, walk, flags, hash, f, c);
    assert Digests(f) == Digests(s);
  }

  /** Nothing recorded and nothing deleted: the keys are the loaded ones, in the loaded order. */
  lemma KeepsKeys(s: Store, walk: seq<string>, flags: Flags, hash: string -> string, f: Store, c: Counters)
    requires s.Valid() && f.Valid()
    requires PassOutcome(s, walk, flags, hash, f, c)
    requires !NeedsRewrite(c, flags)
    ensures f.keys == s.keys
  {
    // No new path was recorded, so the order is the loaded one.
    if flags.addNew {
      NewPathsNone(walk, s.entries, flags, hash);
      assert s.keys + NewPaths(walk, s.entries) == s.keys;
    } else {
      assert s.keys + [] == s.keys;
    }
    // No vanished entry was deleted, so every loaded key is still there.
    forall k | k in s.keys
      ensures k in f.entries
    {
      if k !in walk && !s.entries[k].seen {
        assert k in Vanished(s, walk);
        assert !flags.removeDeleted;
      }
    }
    SubsequenceCovering(f.keys, s.keys);
  }

  /** No failed digest was overwritten. */
  lemma KeepsDigests(s: Store, walk: seq<string>, flags: Flags, hash: string -> string, f: Store, c: Counters)
    requires s.Valid() && f.Valid()
    requires PassOutcome(s, walk, flags, hash, f, c)
    requires !NeedsRewrite(c, flags)
    requires f.keys == s.keys
    ensures forall k :: k in s.entries ==> f.entries[k].digest == s.entries[k].digest
  {
    CountClassPositive(walk, s.entries, flags, hash, Failed);
    forall k | k in s.entries
      ensures f.entries[k].digest == s.entries[k].digest
    {
      if k in walk {
        var i :| 0 <= i < |walk| && walk[i] == k;
        assert Classify(s.entries, walk[i], flags, hash) != Failed || !flags.updateChanged;
      }
    }
  }

  /**
   The same decision stated on the file: the database is rewritten iff the
   text it would be written as differs from the text the loaded store would
   be written as. The two texts of the store as loaded coincide only when
   `write_database` produced the file.
   */
  lemma RewriteIffTextChanges(s: Store, walk: seq<string>, flags: Flags, hash: string -> string)
    requires s.Valid()
    requires Distinct(walk)
    requires Codec.WellFormed(s)
    requires forall k :: k in walk ==>
      |hash(k)| == Codec.DigestWidth && Text.NoTerminators(hash(k)) && Text.NoTerminators(k)
    ensures var r := Reconcile(s, walk, flags, hash);
      r.written.Some? <==> Codec.WriteDatabase(r.store) != Codec.WriteDatabase(s)
  {
    var r := Reconcile(s, walk, flags, hash);
    ReconcileSummary(s, walk, flags, hash);
    RewriteIffChanged(s, walk, flags, hash);
    StaysWellFormed(s, walk, flags, hash, r.store, r.counters);
    Codec.WriteDatabaseInjective(r.store, s);
  }

  /** Every digest a pass leaves was loaded or computed, so a well-formed store stays well-formed. */
  lemma StaysWellFormed(s: Store, walk: seq<string>, flags: Flags, hash: string -> string, f: Store, c: Counters)
    requires s.Valid()
    requires PassOutcome(s, walk, flags, hash, f, c)
    requires Codec.WellFormed(s)
    requires forall k :: k in walk ==>
      |hash(k)| == Codec.DigestWidth && Text.NoTerminators(hash(k)) && Text.NoTerminators(k)
    ensures Codec.WellFormed(f)
  {
  }

  // ----- Loading -----

  /**
   The script's own loader (verify.py, before the walk), line by line. Unlike
   `Codec.ReadLines` it slices every line, so a blank line is loaded as an
   entry for the empty path with an empty digest.
   */
  function ScriptLoadLines(lines: seq<string>): (r: Store)
    ensures r.Valid()
    ensures AllUnseen(r)
    ensures |r.keys| <= |lines|
  {
    if lines == [] then Empty
    else
      var before := ScriptLoadLines(lines[..|lines| - 1]);
      var entry := Text.StripTerminators(lines[|lines| - 1]);
      Put(before, Codec.Tail(entry, Codec.PathStart), Entry(Codec.Head(entry, Codec.DigestWidth), false))
  }

  /** Without blank lines the script's loader and the shared one agree. */
  lemma {:induction false} ScriptLoadAgrees(lines: seq<string>)
    requires forall i :: 0 <= i < |lines| ==> Text.StripTerminators(lines[i]) != []
    ensures ScriptLoadLines(lines) == Codec.ReadLines(lines)
  {
    if lines != [] {
      var n := |lines| - 1;
      var init := lines[..n];
      forall i | 0 <= i < n
        ensures Text.StripTerminators(init[i]) != []
      {
        assert init[i] == lines[i];
      }
      ScriptLoadAgrees(init);
      ScriptLoadStep(lines);
    }
  }

  lemma ScriptLoadStep(lines: seq<string>)
    requires lines != []
    requires Text.StripTerminators(lines[|lines| - 1]) != []
    requires ScriptLoadLines(lines[..|lines| - 1]) == Codec.ReadLines(lines[..|lines| - 1])
    ensures ScriptLoadLines(lines) == Codec.ReadLines(lines)
  {
    var l := lines[|lines| - 1];
    var entry := Text.StripTerminators(l);
    assert Codec.ParseLine(l) == Some(Codec.Line(Codec.Head(entry, Codec.DigestWidth), Codec.Tail(entry, Codec.PathStart)));
  }

  /**
   A blank line, which the shared loader skips, gives the script's loader an
   entry for the empty path; no walked file has that path, so every run
   counts it as deleted.
   */
  lemma ScriptLoadKeepsBlankLine(lines: seq<string>, l: string)
    requires Text.StripTerminators(l) == []
    ensures "" in ScriptLoadLines(lines + [l]).entries
    ensures ScriptLoadLines(lines + [l]).entries[""] == Entry("", false)
    ensures Codec.ReadLines(lines + [l]) == Codec.ReadLines(lines)
  {
    assert (lines + [l])[..|lines|] == lines;
    Codec.BlankLineSkipped(lines, l);
  }

  /** The script's database as loaded before the walk: empty when there is no file. */
  function ScriptLoad(file: Option<string>): (r: Store)
    ensures r.Valid() && AllUnseen(r)
    ensures file.None? ==> r == Empty
  {
    match file
    case None => Empty
    case Some(text) => ScriptLoadLines(Text.SplitLines(text))
  }

  /**
   The script run from its database file, loaded with its own loader.
   Nothing is marked seen on loading, so `removed` counts exactly the
   loaded paths the walk did not encounter.
   */
  function Run(file: Option<string>, walk: seq<string>, flags: Flags, hash: string -> string): (r: Report)
    requires Distinct(walk)
    ensures r.counters.removed
      == |set k | k in ScriptLoad(file).entries && k !in walk|
  {
    var s := ScriptLoad(file);
    ReconcileSummary(s, walk, flags, hash);
    assert Vanished(s, walk) == set k | k in s.entries && k !in walk;
    Reconcile(s, walk, flags, hash)
  }

  /** The script run with the shared loader, which skips blank lines, in place of its own. */
  function RunWithSharedLoader(file: Option<string>, walk: seq<string>, flags: Flags, hash: string -> string): (r: Report)
    requires Distinct(walk)
    ensures r.counters.removed
      == |set k | k in Codec.ReadDatabase(file).entries && k !in walk|
  {
    var s := Codec.ReadDatabase(file);
    ReconcileSummary(s, walk, flags, hash);
    assert Vanished(s, walk) == set k | k in s.entries && k !in walk;
    Reconcile(s, walk, flags, hash)
  }

  /**
   A database file holding one blank line: the script counts its empty path
   as removed, while with the shared loader there is nothing to remove.
   */
  lemma BlankFileRemoved(walk: seq<string>, flags: Flags, hash: string -> string)
    requires Distinct(walk)
    requires "" !in walk
    ensures Run(Some("\n"), walk, flags, hash).counters.removed == 1
    ensures RunWithSharedLoader(Some("\n"), walk, flags, hash).counters.removed == 0
  {
    assert Text.LineEnd("\n") == 0;
    assert "\n"[1..] == [] && "\n"[..1] == "\n";
    assert Text.SplitLines([]) == [];
    assert Text.SplitLines("\n") == ["\n"];
    ScriptLoadKeepsBlankLine([], "\n");
    assert [] + ["\n"] == ["\n"];
    var s := ScriptLoad(Some("\n"));
    assert s.keys == [""];
    assert (set k | k in s.entries && k !in walk) == {""};
    var t := Codec.ReadDatabase(Some("\n"));
    assert t.entries == map[];
    assert (set k | k in t.entries && k !in walk) == {};
  }
}

=== FILE: store.dfy ===
/**
 The checksum store: an insertion-ordered dictionary from a relative path to
 its record `(digest, seen)`, as held by the `database` dictionaries of the
 verification script and the patch generator. `keys` is the dictionary's
 iteration order; assigning to a present key keeps its position, assigning
 to an absent key appends it, deleting a key closes the gap.
 */
module Store {
  import opened Basics

  /** One database record: the stored content digest and the per-run `seen` mark. */
  datatype Entry = Entry(digest: string, seen: bool)

  datatype Store = Store(keys: seq<string>, entries: map<string, Entry>) {
    /** Every path occurs once in `keys`, and `keys` lists exactly the paths that have an entry. */
    ghost predicate Valid()
    {
      && Distinct(keys)
      && (forall k :: k in entries <==> k in keys)
    }
  }

  /** The dictionary the programs start from when no database file exists. */
  const Empty := Store([], map[])

  /** `database[path] = e`: overwrite in place, or append a new key at the end. */
  function Put(s: Store, path: string, e: Entry): (r: Store)
    requires s.Valid()
    ensures r.Valid()
    ensures r.entries == s.entries[path := e]
    ensures path in s.entries ==> r.keys == s.keys
    ensures path !in s.entries ==> r.keys == s.keys + [path]
  {
    if path in s.entries then Store(s.keys, s.entries[path := e])
    else Store(s.keys + [path], s.entries[path := e])
  }

  /** `keys` with every occurrence of `path` dropped, the rest in the same order. */
  function Without(keys: seq<string>, path: string): (r: seq<string>)
    ensures forall k :: k in r <==> k in keys && k != path
    ensures Subsequence(r, keys)
    ensures Distinct(keys) ==> Distinct(r)
  {
    if keys == [] then []
    else if keys[0] == path then
      var rest := Without(keys[1..], path);
      assert Subsequence(rest, keys[1..]);
      rest
    else
      var rest := Without(keys[1..], path);
      assert Distinct(keys) ==> Distinct(keys[1..]);
      assert ([keys[0]] + rest)[1..] == rest;
      assert forall k :: k in keys ==> k == keys[0] || k in keys[1..];
      assert Distinct(keys) ==> keys[0] !in keys[1..] by {
        if Distinct(keys) {
          assert forall m :: 0 <= m < |keys[1..]| ==> keys[1..][m] == keys[m + 1];
        }
      }
      assert Distinct(keys) ==> Distinct([keys[0]] + rest) by {
        if Distinct(keys) {
          forall i, j | 0 <= i < j < |[keys[0]] + rest|
            ensures ([keys[0]] + rest)[i] != ([keys[0]] + rest)[j]
          {
            if i == 0 {
              assert ([keys[0]] + rest)[j] == rest[j - 1];
              assert rest[j - 1] in rest;
            }
          }
        }
      }
      [keys[0]] + rest
  }

  /** `del database[path]` for a present key. */
  function Remove(s: Store, path: string): (r: Store)
    requires s.Valid()
    ensures r.Valid()
    ensures r.entries == s.entries - {path}
    ensures Subsequence(r.keys, s.keys)
  {
    Store(Without(s.keys, path), s.entries - {path})
  }

  /** `database[path][1] = True`: record that the path was encountered, nothing else changes. */
  function MarkSeen(s: Store, path: string): (r: Store)
    requires s.Valid()
    requires path in s.entries
    ensures r.Valid()
    ensures r.keys == s.keys
    ensures r.entries.Keys == s.entries.Keys
    ensures r.entries[path] == Entry(s.entries[path].digest, true)
    ensures forall k :: k in s.entries && k != path ==> r.entries[k] == s.entries[k]
  {
    Put(s, path, s.entries[path].(seen := true))
  }

  /** No entry is marked seen: the state of every freshly loaded store. */
  ghost predicate AllUnseen(s: Store)
  {
    forall k :: k in s.entries ==> !s.entries[k].seen
  }

  /** The part of a store that reaches the database file: each path's digest. */
  function Digests(s: Store): (r: map<string, string>)
    ensures r.Keys == s.entries.Keys
    ensures forall k :: k in r ==> r[k] == s.entries[k].digest
  {
    map k | k in s.entries :: s.entries[k].digest
  }

  /** Two stores that would be written as the same file: same order, same digests. */
  ghost predicate SamePersisted(a: Store, b: Store)
  {
    a.keys == b.keys && Digests(a) == Digests(b)
  }

  /** The store with every `seen` mark cleared and nothing else changed. */
  function ResetSeen(s: Store): (r: Store)
    requires s.Valid()
    ensures r.Valid()
    ensures AllUnseen(r)
    ensures SamePersisted(r, s)
  {
    Store(s.keys, map k | k in s.entries :: s.entries[k].(seen := false))
  }
}

=== FILE: text.dfy ===
/**
 Line-oriented text as the programs read and write it: Python's iteration
 over a text-mode file (each line keeps its '\n'; a last line without one is
 kept as is), `rstrip('\r\n')`, and writing lines back one after another.
 Text is the file's characters as read: lines end at '\n' only, a '\r'
 before it stays in the line until `rstrip`, and a lone '\r' ends no line.
 */
module Text {

  predicate IsTerminator(c: char)
  {
    c == '\r' || c == '\n'
  }

  ghost predicate NoTerminators(s: string)
  {
    forall i :: 0 <= i < |s| ==> !IsTerminator(s[i])
  }

  /** `line.rstrip('\r\n')`: the longest prefix that does not end in a line terminator. */
  function StripTerminators(line: string): (r: string)
    ensures r <= line
    ensures r == [] || !IsTerminator(r[|r| - 1])
    ensures forall i :: |r| <= i < |line| ==> IsTerminator(line[i])
  {
    if line != [] && IsTerminator(line[|line| - 1]) then StripTerminators(line[..|line| - 1])
    else line
  }

  /** A line that holds no '\n' except possibly as its last character. */
  ghost predicate OneLine(l: string)
  {
    l != [] && forall i :: 0 <= i < |l| - 1 ==> l[i] != '\n'
  }

  /** A complete line: one line that ends in '\n'. */
  ghost predicate IsLine(l: string)
  {
    OneLine(l) && l[|l| - 1] == '\n'
  }

  /** The lines written one after another. */
  function Join(lines: seq<string>): string
  {
    if lines == [] then [] else lines[0] + Join(lines[1..])
  }

  /** Position of the first '\n', or the length when there is none. */
  function LineEnd(text: string): (n: nat)
    ensures n <= |text|
    ensures forall i :: 0 <= i < n ==> text[i] != '\n'
    ensures n < |text| ==> text[n] == '\n'
  {
    if text == [] || text[0] == '\n' then 0 else 1 + LineEnd(text[1..])
  }

  /** `for l in file`: cut the text after every '\n'. */
  function SplitLines(text: string): (r: seq<string>)
    ensures Join(r) == text
    ensures forall i :: 0 <= i < |r| ==> OneLine(r[i])
    ensures forall i :: 0 <= i < |r| - 1 ==> IsLine(r[i])
    decreases |text|
  {
    if text == [] then []
    else
      var n := LineEnd(text);
      if n == |text| then [text]
      else
        var rest := SplitLines(text[n + 1..]);
        assert text == text[..n + 1] + text[n + 1..];
        assert ([text[..n + 1]] + rest)[1..] == rest;
        [text[..n + 1]] + rest
  }

  /** Splitting what was written as complete lines gives those lines back. */
  lemma {:induction false} SplitJoin(lines: seq<string>)
    requires forall i :: 0 <= i < |lines| ==> IsLine(lines[i])
    ensures SplitLines(Join(lines)) == lines
  {
    if lines != [] {
      var l, rest := lines[0], Join(lines[1..]);
      var text := l + rest;
      assert text == Join(lines);
      var n := LineEnd(text);
      assert text[|l| - 1] == '\n';
      assert forall i :: 0 <= i < |l| - 1 ==> text[i] != '\n';
      assert n == |l| - 1;
      assert text[..n + 1] == l;
      assert text[n + 1..] == rest;
      SplitJoin(lines[1..]);
    }
  }

  /** Stripping a written line removes exactly its '\n' when the content ends in no terminator. */
  lemma StripNewline(content: string)
    requires content == [] || !IsTerminator(content[|content| - 1])
    ensures StripTerminators(content + "\n") == content
  {
    assert (content + "\n")[..|content|] == content;
  }
}
